=== FILE: README.md ===
# truffle code generation and evaluation, in Dafny

This project models `src/codegen.rs` of truffle, a small embeddable
scripting engine. The file has two halves:

- `FunctionCodegen` is a register machine. It holds two parallel register
  sequences, one of i64 payloads and one of type tags. It also holds a
  sequence of instructions whose positions double as branch targets.
  - The builder half allocates registers and appends instructions. It picks
    the integer or float opcode from the left operand's tag.
  - `eval` is a fetch/decode/execute loop over a program counter. It returns
    the payload and the tag of register 0.
- `Translater` lowers an annotated syntax tree into that machine in a single
  pass:
  - literals, binary operators, blocks, `let` and variable references;
  - `if` and `while`, through reserve-then-patch backpatching of `BRIF`/`JMP`;
  - calls of host functions.

## Modules

| file | module | models |
|---|---|---|
| `wrappers.dfy` | `Wrappers` | `Option`, `Result` |
| `faults.dfy` | `Faults` | every panic of the source, as a value |
| `builder.dfy` | `Builder` | instructions, the register file, the builder helpers |
| `vm.dfy` | `Vm` | `eval`, `eval_external_call`, `unbox_to_register` |
| `translator.dfy` | `Translator` | `Translater` |
| `properties.dfy` | `Properties` | facts connecting builder, translator and interpreter |
| `semantics.dfy` | `Semantics` | a direct interpreter of expressions, and the theorem that translated code computes what it computes |
| `examples.dfy` | `Examples` | `2 + 3` and `1 < 2`, translated and evaluated |

## Modelling choices

Every panic is a `Failure` of `Faults.Fault`, never a precondition. That covers:

- an out-of-range register or node index;
- an unsupported operand tag, node kind or operator;
- an unresolved variable or call;
- i64 overflow and division by zero;
- a host error that the engine unwraps.

The machine is immutable. A `Codegen` value is threaded through pure
functions, and every builder helper returns the new `Codegen` together with
the register it hands back.

Some inputs are supplied by callers:

- the syntax tree, as a sequence of nodes addressed by index;
- the type checker's tables, as maps and a sequence;
- IEEE arithmetic, as uninterpreted functions inside `Vm.Env`;
- host callables.

Two runs are bounded by `fuel`:

- `eval` may loop forever because of `while`.
- Translation follows node indices that may form a cycle.

Running out of fuel is the `OutOfFuel` fault.

### Behaviour worth knowing

- **Register 0 is simply the first register allocated.**
  - `translate` moves the root's value into register 0, whatever that
    register was created for.
  - `eval` reports `register_types[0]`, which is that first register's tag
    and need not be the result's.
  - `Examples.LessReportsFirstLiteralTag` shows `1 < 2` evaluating to
    `(1, I64)`: the comparison's tag is BOOL, but register 0 is the literal 1.
- **An empty tree cannot be evaluated.** An empty tree creates no
  registers, and `eval` then indexes register 0 and panics
  (`Properties.EmptyTreeEvalFaults`).
- **Host arguments are read in order.** A two-argument host function given
  a single argument reads that argument's register first. An out-of-range
  register therefore panics before the missing second argument does
  (`Examples.ShortCallReadsFirstArgument`).
- **A variable is its register.** `let` binds the variable to its
  initializer's register, and nothing else writes the variable table. An
  assignment moves the new value into that same register, so every later
  reference sees it (`Examples.RebindEvaluates`).

### Quirks reproduced as written

- The comparison helpers allocate the BOOL target before reading the left
  operand's tag. The register file therefore grows even on the error path.
  A left operand equal to the old register count reads the new BOOL tag.
- `unbox_to_register` leaves the target untouched when the host returns
  something other than an i64.
- The right operand's tag is never examined. An `I64 + BOOL` adds the
  payloads.

## Model

| member | source | states |
|---|---|---|
| Builder.NewRegisterWithValue | src/codegen.rs:153-158 | One payload and one tag are appended in lockstep. The new index is the old register count. Every earlier register and every instruction is unchanged, and a well-formed builder stays well formed. |
| Builder.NewRegister | src/codegen.rs:160-162 | A fresh register of the given tag holding payload 0. No instruction is emitted. |
| Builder.I64Const | src/codegen.rs:164-166 | A fresh I64 register preloaded with the constant. No instruction is emitted. |
| Builder.F64Const | src/codegen.rs:168-170 | A fresh F64 register preloaded with the constant's bit pattern. |
| Builder.BoolConst | src/codegen.rs:172-178 | A fresh BOOL register that holds 1 exactly when the constant is true, and 0 exactly when it is false. |
| Builder.Arith | src/codegen.rs:180-258 | Success exactly when the left operand exists with an I64 or F64 tag. An out-of-range operand or any other tag is the corresponding fault. On success: a fresh target with the left operand's tag, and exactly one appended instruction, whose opcode is the float variant exactly when that tag is F64. |
| Builder.Compare | src/codegen.rs:260-330 | The target is always BOOL. Because it is allocated first, a left operand equal to the old register count fails on the BOOL tag. Otherwise success and failure are as for arithmetic, with the float or integer comparison opcode. |
| Builder.Mov | src/codegen.rs:332-340 | A self-move returns the source and appends nothing. Any other move appends exactly one `MOV` and returns the target. The register file is untouched. |
| Builder.Brif | src/codegen.rs:342-356 | Appends exactly one `BRIF` with the given edges and returns the register it was given. Well formed when the edges are at most the new length. |
| Builder.Jmp | src/codegen.rs:358-360 | Appends exactly one `JMP`, extending the code. |
| Builder.ExternalCall | src/codegen.rs:362-365 | Appends exactly one `EXTERNALCALL`. Well formed when its target and arguments exist. |
| Builder.Patch | src/codegen.rs:812-816 | Overwriting one instruction in place: that position holds the new instruction, every other position and the whole register file are unchanged, and the length stays the same. Well formedness survives when the new instruction's registers and targets are in range. |
| Builder.NextPosition | src/codegen.rs:603-605 | The position returned is exactly where the next appended instruction lands. |
| Vm.TruncDiv | src/codegen.rs:391-396 | Rust's integer `/`. The remainder is smaller than the divisor in magnitude and never has the dividend's opposite sign. |
| Vm.ApplyOpcode | src/codegen.rs:373-512 | A comparison yields 1 exactly when its relation holds, and 0 otherwise. Add, sub and mul succeed exactly when the exact result fits in i64. Division by zero faults. Float opcodes never fault. Overflow and division by zero are the only faults. |
| Vm.CallHost | src/codegen.rs:545-569 | An unknown function or a missing argument faults. A one-argument host receives the payload of the first argument register, a two-argument host the payloads of the first two, in that order. Arguments are read in order: a two-argument host given one argument faults on that argument's register when it is outside the file, and only otherwise on the missing second argument. An argument register outside the file faults, naming that register, and every register fault names such an argument. The host's answer is then unwrapped: an error is the unwrap panic, an i64 is kept, and anything else is kept as "no value". |
| Vm.Unbox | src/codegen.rs:571-575 | A failed downcast leaves the register file exactly as it was. An i64 is written to the target. |
| Vm.Step | src/codegen.rs:371-540 | Each case of the execution loop. A non-branch instruction advances the counter by one. `BRIF` goes to its else edge exactly when the condition is 0, and to its then edge otherwise. `JMP` goes to its target. `MOV` copies one payload. A binary opcode stores `ApplyOpcode`'s result. A host call's i64 result is written to the call's target, a target outside the file faults, another result only advances, and a host fault ends the step with that fault. Instructions and tags never change, and only the written register changes. |
| Vm.Run | src/codegen.rs:367-540 | The loop stops only at or past the end of the code, exactly at the end for well-formed code. Well-formed code never indexes outside the register file. |
| Vm.Eval | src/codegen.rs:367-543 | The reported payload is register 0 of the machine after the run, and the reported tag is `register_types[0]` of the code as built. A fault of the run is the fault of `eval`. A finished run with a register 0 always reports. An empty register file always faults. Well-formed code with a register 0 never faults on a register index. |
| Vm.RunMoreFuel | src/codegen.rs:371-540 | A run that finished within some fuel gives the same outcome with more fuel. |
| Translator.EmitOperator | src/codegen.rs:727-738 | Arithmetic and comparison tokens go to the matching helper. Assignment is a `mov` into the left register and returns it. Anything else is the unsupported-operation fault. |
| Translator.TranslateNode | src/codegen.rs:638-684 | Each success keeps the translator invariant and only extends the code. An integer literal succeeds exactly when it fits in i64. Operator tokens and unknown kinds are refused. An index past the tree faults. |
| Translator.TranslateBinop | src/codegen.rs:715-739 | The left operand is translated first. The right operand is translated from the state the left operand leaves. Each result extends the previous one, and an assignment's value is the left register. The variable table is the one the right operand leaves: an operator or assignment never rebinds a variable. |
| Translator.EmitBinop | src/codegen.rs:727-738 | The operator's code is appended after both operands' code, the variable table is kept, and an assignment's value is the left register. |
| Translator.TranslateLet | src/codegen.rs:741-754 | Succeeds exactly when the initializer does. Returns the initializer's register unchanged and maps the defining node to it. |
| Translator.TranslateVariable | src/codegen.rs:756-772 | Succeeds exactly when both lookups are defined, and then returns the register the definition maps to, emitting nothing. The unresolved-variable and missing-definition faults cover the other cases. |
| Translator.TranslateIf | src/codegen.rs:774-818 | The result is a fresh register with the node's type. The condition is lowered from the state holding that register, and its code is kept. The branch sits right after it and tests the condition's register. Its true edge is the next instruction. Its false edge is the end of the code, or with an else branch the instruction just after a jump to the end. The rest is exactly the arms lowered after that reserved branch. |
| Translator.Frame | src/codegen.rs:784 | Allocating the `if` or `while` result register: one register with the given tag is added, and the code and the variables are unchanged. |
| Translator.Reserve | src/codegen.rs:787-788 | Reserving the branch: exactly one `BRIF` testing the condition register is appended, and the register file and the variables are unchanged. |
| Translator.MoveInto | src/codegen.rs:792 | The arm's value is moved into the output register right after the arm's code, or the move is elided when it is already there. The register file is unchanged. |
| Translator.TranslateArms | src/codegen.rs:790-817 | Only the reserved position is overwritten. Everything else extends. The branch there is patched as the `if` requires, and it tests the condition register it was given. The then code follows the branch exactly as lowered. The then arm's value is moved into the `if`'s output register right after the then code, with the move elided when it is already there. With an else branch, the jump to the end follows that move; without one, the move ends the code. |
| Translator.FinishArms | src/codegen.rs:794-816 | Without an else branch, this always succeeds, appends nothing, and patches the reserved branch so that its false edge is the end of the code. With one, the code is exactly the else arm's code with the reserved branch patched: a jump to the end follows the then code, and the branch's false edge is just past that jump. A failing else arm is this call's failure. |
| Translator.PatchBranch | src/codegen.rs:812-816 | The code is exactly the given code with the reserved branch overwritten, so only that position differs from the code it was reserved in. The invariant, the registers and the variables are kept. |
| Translator.TranslateElse | src/codegen.rs:797-806 | The reserved jump is patched to the position after the else code. The else code is lowered right after that jump and kept as lowered, and it is followed by a move of its value into the `if`'s output register, elided when it is already there. The variable table is the one the else arm leaves. |
| Translator.TranslateWhile | src/codegen.rs:820-849 | The result is a fresh VOID register. The condition is lowered from the state holding it, and its code is kept. The branch sits right after it and tests the condition's register. The body is lowered right after the branch and kept, and a jump back to the loop top ends the code. The branch enters the body on true and leaves past the back-jump on false. The variable table is the one the body leaves. |
| Translator.CloseLoop | src/codegen.rs:838-846 | The code is exactly the body's code, then a jump to the loop top, with the reserved branch overwritten to test the condition register, enter the body right after it and leave past the jump. The condition's code is kept. The invariant, the register file and the variables are kept. |
| Translator.TranslateBlock | src/codegen.rs:851-871 | An empty block is a fresh VOID register with no code. A one-statement block is exactly that statement's lowering. A longer block keeps the translator invariant and lowers its first statement from the block's own start state. |
| Translator.TranslateSequence | src/codegen.rs:861-869 | Lowering a non-empty statement list keeps the translator invariant, and earlier code and registers are only extended. A single statement is exactly its own lowering, and the first statement is lowered from the start state. |
| Translator.TranslateCall | src/codegen.rs:873-897 | Unresolved callee faults. Otherwise the result is a fresh VOID register, and the code is exactly the arguments' code followed by one call of the resolved function. That call passes the registers the arguments were lowered to, in argument order, and writes the result register. The variable table is the one the arguments leave. |
| Translator.EmitCall | src/codegen.rs:894 | The call instruction lands at the end of the code, the register file and the variable table are untouched, and the result register is the one given. |
| Translator.TranslateArgs | src/codegen.rs:888-892 | One register per argument, each existing. No arguments emit nothing. The first argument is lowered from the start state, its register comes first, and the rest are lowered from the state it leaves. |
| Translator.Translate | src/codegen.rs:619-636 | An empty tree gives an empty builder. Otherwise the result is well formed and has registers. The registers are exactly the root's. The code is the root's, followed by a `MOV` into register 0 unless the root already is register 0. |
| Properties.OpcodeSelectionMeaning | src/codegen.rs:180-258 | The opcode chosen for an I64 left operand does i64 arithmetic with overflow and division faults, matching an independent definition. The one for F64 does the float operation. Integer comparisons yield 1 exactly when the relation holds. |
| Properties.DivisionOverflow | src/codegen.rs:391-396 | The only i64 division of i64 operands that overflows is the most negative value divided by -1. |
| Properties.SelfMoveIsNoOp | src/codegen.rs:332-340 | Executing a self-move would only advance the counter, so eliding it loses nothing. |
| Properties.IntComparisonWritesBoolean | src/codegen.rs:397-428 | An executed integer comparison writes 0 or 1, and 1 exactly when its relation holds. |
| Properties.IfBranchDispatch | src/codegen.rs:517-529 | At a patched `if` branch, a nonzero condition enters the then code. A zero condition skips to the else code, just past the jump to the end, or to the end when there is no else. |
| Properties.TranslatedIfTestsCondition | src/codegen.rs:785-816 | Executing a translated `if` at its branch tests the register its condition was lowered into. A nonzero value enters the then code, and zero skips past it to the else code or to the end. |
| Properties.TranslatedLoopTestsCondition | src/codegen.rs:831-846 | Executing a translated `while` at its branch tests the register its condition was lowered into. A nonzero value enters the body, and zero leaves past the back-jump. |
| Properties.LoopControl | src/codegen.rs:828-848 | The back-jump returns to the loop top. A zero condition at the patched branch leaves the loop and ends the run. |
| Properties.LetThenVariableAliases | src/codegen.rs:741-772 | Right after a `let`, a reference resolved to it yields exactly the initializer's register. Later references see the same register because only `let` writes the variable table (see the Translator rows above); `Examples.RebindEvaluates` shows one after an assignment. |
| Properties.AssignmentWritesVariableRegister | src/codegen.rs:724-736 | The value of `x = e` is x's own register. When e lands elsewhere, the last instruction moves e into it. |
| Properties.EmptyTreeEvalFaults | src/codegen.rs:619-636 | An empty tree translates to an empty builder, and evaluating it faults on register 0. |
| Properties.TranslatedEvalStaysInRegisters | src/codegen.rs:542 | Translated code of a non-empty tree never indexes outside its registers, and the reported tag is register 0's. |
| Properties.BlockValueIsLastStatement | src/codegen.rs:861-869 | A non-empty block's result is exactly the lowering of its last statement, from some state that extends the block's start. |
| Properties.SequenceValueIsLast | src/codegen.rs:861-869 | The same for a statement list, naming the state the last statement is lowered from. |
| Properties.SequenceRest | src/codegen.rs:863-868 | A list of several statements lowers its first statement, then the rest from the state that leaves. |
| Properties.ArgumentsInOrder | src/codegen.rs:888-892 | The first argument is lowered from the call's state and its register heads the list. The remaining registers are exactly the lowering of the remaining arguments, from the state the first one leaves. |
| Properties.ArgumentsLowered | src/codegen.rs:888-892 | Each argument register is the register that a lowering of the argument at the same position produced, from a state extending the call's start. |
| Properties.HostCallOutcome | src/codegen.rs:533-575 | The effect of one host call on the machine, with faults in the order the arguments are read: no argument faults; a first argument outside the file faults on that register; a two-argument host then faults on a missing second argument, then on a second register outside the file. Once the host is called, a host error is the unwrap panic, an i64 is written into the target and the counter advances, and any other answer only advances the counter. |
| Semantics.Operate | src/codegen.rs:727-736 | Direct meaning of an operator on two values. The left tag alone decides integer or float. A comparison gives a BOOL 0 or 1. An unsupported operator or left tag is the builder's fault. The only other faults are overflow and division by zero. |
| Semantics.Denote | src/codegen.rs:645-660 | Direct interpreter of expressions. A value is I64, F64 or BOOL, a BOOL value is 0 or 1, and an I64 value fits in i64. |
| Semantics.OperateMatchesOpcode | src/codegen.rs:373-512 | Executing the opcode the builder chose gives exactly the operator's direct meaning, or exactly its fault. |
| Semantics.StepsThen | src/codegen.rs:371-540 | Running a + b steps is running a steps and then b more, and a fault in the first a ends the run. |
| Semantics.RunAfterSteps | src/codegen.rs:371-540 | The whole loop's outcome after k steps is the outcome of running on from where those steps left off. |
| Semantics.BinaryStep | src/codegen.rs:373-512 | One binary instruction stores its opcode's result in the target and advances, or raises the opcode's fault. |
| Semantics.LiteralTranslation | src/codegen.rs:686-713 | A literal emits no code. Its fresh register holds exactly the payload and tag the literal denotes. |
| Semantics.PureCorrect | src/codegen.rs:638-684 | For a pure expression, the code appended for it, run from any machine holding that code and the builder's fresh registers, computes the expression's direct value. It leaves the value in the returned register with the returned register's tag, touches only the fresh registers, and stops at the end of that code. If the direct value is a fault, the code raises the same fault. |
| Semantics.PureBinopCorrect | src/codegen.rs:715-739 | The same for a binary operation. The left operand's code runs, then the right operand's, then the operator's one instruction. |
| Semantics.CompiledExpressionEvaluates | src/codegen.rs:619-636 | `eval` of a translated pure expression yields the expression's payload paired with register 0's tag, or its fault. |
| Semantics.EvalComputed | src/codegen.rs:542 | If the code before the final `mov` computes a value, `eval` returns that payload with register 0's tag. |
| Examples.AddEvaluates | src/codegen.rs:619-636 | `2 + 3` translates and evaluates to `(5, I64)`. |
| Examples.LessReportsFirstLiteralTag | src/codegen.rs:542 | `1 < 2` denotes a BOOL 1, yet `eval` reports `(1, I64)`: the tag of register 0, the first literal. |
| Examples.RebindEvaluates | src/codegen.rs:715-772 | `let x = 1; x = x + 1; x` translates to `[Binary(IADD, 0, 1, 2), MOV(0, 2)]` over registers `[1, 1, 0]`, and `eval` gives `(2, I64)`: the final `x` reads the register the assignment wrote. |
| Examples.ShortCallReadsFirstArgument | src/codegen.rs:558-560 | A two-argument host given one argument faults on that argument's register when it is outside the file, and on the missing second argument otherwise. |

## Left out

- IEEE float arithmetic and `transmute` bit-punning: float operations are uninterpreted functions on bit-pattern payloads.
- Literal text parsing (`from_str_radix`, `parse::<f64>`): literal nodes carry their value already parsed. An integer literal outside i64 stands for the parse panic.
- `Box<dyn Any>` and downcasting: a host call returns an i64, a value of another type, or an error.
- The commented-out zero-argument host function variant is not modelled.
- Vm.Unwrap: an i64 a host function returns is an unbounded integer, and so are the bit pattern a float operation returns and the bit pattern a float literal node (`Float(bits)`) carries. The model does not check that any of them fits in 64 bits.
- Vm.ApplyOpcode: integer overflow is the panic of a debug build. A release build's wrap-around is not modelled.
- `debug_print`: console output only.
- src/main.rs, the tests, and truffle-attributes are not part of this model: REPL and file handling, test harnesses, and a procedural macro.
- The type checker is not part of this model. The numeric values of the VOID, I64, F64 and BOOL tags are placeholders; only their distinctness matters.
- Translator.Translate: models a fresh `Translater` with an empty variable table. Reusing one `Translater` across trees is not modelled.
- Translator.TranslateNode: recursion deeper than `fuel` faults with `OutOfFuel`. That stands for the stack overflow a cyclic tree causes, and for any depth beyond the bound.
- Vm.Run: a run longer than its fuel faults with `OutOfFuel`. Termination of `eval` is not modelled.
- Semantics.PureCorrect: the correctness theorem covers only literals, statements and binary arithmetic and comparison. Variables, blocks, `if`, `while` and calls are covered only by the structural facts about the code they produce.

=== FILE: builder.dfy ===
/**
 * The construction half of `FunctionCodegen` in src/codegen.rs: the
 * instruction set, the register file (two parallel sequences, payloads and
 * type tags) and the helpers that allocate registers and emit instructions,
 * choosing the integer or float opcode from the left operand's type tag.
 */
module Builder {
  import opened Wrappers
  import opened Faults

  type RegisterId = nat
  type InstructionId = nat
  type FunctionId = nat
  type TypeId = nat

  // The distinguished type tags the core tests for. Their numeric values live
  // in the type checker, which is not part of this model; only the fact that
  // they are pairwise distinct matters here.
  const VOID_TYPE: TypeId := 0
  const I64_TYPE: TypeId := 1
  const F64_TYPE: TypeId := 2
  const BOOL_TYPE: TypeId := 3

  const I64_MIN: int := -0x8000_0000_0000_0000
  const I64_MAX: int := 0x7FFF_FFFF_FFFF_FFFF

  /** Whether a mathematical integer fits in a Rust `i64`. */
  predicate IsI64(v: int) {
    I64_MIN <= v <= I64_MAX
  }

  /** The sixteen three-address opcodes: integer and float arithmetic and comparison. */
  datatype Opcode =
    | IADD | ISUB | IMUL | IDIV
    | ILT | ILTE | IGT | IGTE
    | FADD | FSUB | FMUL | FDIV
    | FLT | FLTE | FGT | FGTE

  /** Which of `add`/`sub`/`mul`/`div` a builder call asks for. */
  datatype ArithKind = Add | Sub | Mul | Div

  /** Which of `lt`/`lte`/`gt`/`gte` a builder call asks for. */
  datatype CompareKind = Lt | Lte | Gt | Gte

  /**
   * One bytecode instruction. Registers are indices into the register file;
   * branch targets are positions in the instruction sequence.
   */
  datatype Instruction =
    | Binary(op: Opcode, lhs: RegisterId, rhs: RegisterId, target: RegisterId)
    | MOV(target: RegisterId, source: RegisterId)
    | BRIF(condition: RegisterId, thenBranch: InstructionId, elseBranch: InstructionId)
    | JMP(location: InstructionId)
    | EXTERNALCALL(head: FunctionId, args: seq<RegisterId>, target: RegisterId)

  /** The builder state: the instruction sequence and the register file. */
  datatype Codegen = Codegen(
    instructions: seq<Instruction>,
    registerValues: seq<int>,
    registerTypes: seq<TypeId>)

  /** A builder state together with the register an operation produced. */
  datatype Emit = Emit(cg: Codegen, reg: RegisterId)

  const EmptyCodegen: Codegen := Codegen([], [], [])

  predicate IsFloatOpcode(op: Opcode) {
    op.FADD? || op.FSUB? || op.FMUL? || op.FDIV? || op.FLT? || op.FLTE? || op.FGT? || op.FGTE?
  }

  predicate IsComparison(op: Opcode) {
    op.ILT? || op.ILTE? || op.IGT? || op.IGTE? || op.FLT? || op.FLTE? || op.FGT? || op.FGTE?
  }

  /** The opcode `add`/`sub`/`mul`/`div` emit for a float or an integer left operand. */
  function ArithOpcode(kind: ArithKind, float: bool): (op: Opcode)
    ensures IsFloatOpcode(op) == float && !IsComparison(op)
  {
    match kind
    case Add => if float then FADD else IADD
    case Sub => if float then FSUB else ISUB
    case Mul => if float then FMUL else IMUL
    case Div => if float then FDIV else IDIV
  }

  /** The opcode `lt`/`lte`/`gt`/`gte` emit for a float or an integer left operand. */
  function CompareOpcode(kind: CompareKind, float: bool): (op: Opcode)
    ensures IsFloatOpcode(op) == float && IsComparison(op)
  {
    match kind
    case Lt => if float then FLT else ILT
    case Lte => if float then FLTE else ILTE
    case Gt => if float then FGT else IGT
    case Gte => if float then FGTE else IGTE
  }

  /** The two parallel sequences of the register file have the same length. */
  predicate Lockstep(cg: Codegen) {
    |cg.registerValues| == |cg.registerTypes|
  }

  /**
   * Every register an instruction names exists among `registers` registers, and
   * every branch target is at most `length`, the end of the instruction sequence.
   */
  predicate InstructionInRange(ins: Instruction, registers: nat, length: nat) {
    match ins
    case Binary(_, lhs, rhs, target) => lhs < registers && rhs < registers && target < registers
    case MOV(target, source) => target < registers && source < registers
    case BRIF(condition, thenBranch, elseBranch) =>
      condition < registers && thenBranch <= length && elseBranch <= length
    case JMP(location) => location <= length
    case EXTERNALCALL(_, args, target) =>
      target < registers && forall a :: a in args ==> a < registers
  }

  /** A register file in lockstep and instructions that stay inside it and inside the code. */
  ghost predicate WellFormed(cg: Codegen) {
    && Lockstep(cg)
    && forall i :: 0 <= i < |cg.instructions| ==>
         InstructionInRange(cg.instructions[i], |cg.registerValues|, |cg.instructions|)
  }

  /**
   * `after` keeps every instruction, payload and type tag `before` has, at the
   * same positions, and may add more after them.
   */
  ghost predicate Extends(before: Codegen, after: Codegen) {
    && |before.instructions| <= |after.instructions|
    && |before.registerValues| <= |after.registerValues|
    && |before.registerTypes| <= |after.registerTypes|
    && (forall i :: 0 <= i < |before.instructions| ==> after.instructions[i] == before.instructions[i])
    && (forall i :: 0 <= i < |before.registerValues| ==> after.registerValues[i] == before.registerValues[i])
    && (forall i :: 0 <= i < |before.registerTypes| ==> after.registerTypes[i] == before.registerTypes[i])
  }

  /** `Extends`, except that the instruction at position `at` may have been patched. */
  ghost predicate ExtendsExcept(before: Codegen, after: Codegen, at: nat) {
    && |before.instructions| <= |after.instructions|
    && |before.registerValues| <= |after.registerValues|
    && |before.registerTypes| <= |after.registerTypes|
    && (forall i :: 0 <= i < |before.instructions| && i != at ==> after.instructions[i] == before.instructions[i])
    && (forall i :: 0 <= i < |before.registerValues| ==> after.registerValues[i] == before.registerValues[i])
    && (forall i :: 0 <= i < |before.registerTypes| ==> after.registerTypes[i] == before.registerTypes[i])
  }

  lemma InstructionInRangeMonotone(ins: Instruction, registers: nat, length: nat, registers': nat, length': nat)
    requires InstructionInRange(ins, registers, length)
    requires registers <= registers' && length <= length'
    ensures InstructionInRange(ins, registers', length')
  {
  }

  /**
   * `next_position`: the position the next emitted instruction will occupy.
   * Whatever instruction is appended next lands exactly there.
   */
  function NextPosition(cg: Codegen): (p: InstructionId)
    ensures forall ins :: p < |Append(cg, ins).instructions| && Append(cg, ins).instructions[p] == ins
  {
    |cg.instructions|
  }

  /** Appends one instruction at the end of the sequence. */
  function Append(cg: Codegen, ins: Instruction): (cg': Codegen)
    ensures |cg'.instructions| == |cg.instructions| + 1
    ensures cg'.instructions[|cg.instructions|] == ins
    ensures cg'.registerValues == cg.registerValues && cg'.registerTypes == cg.registerTypes
    ensures Extends(cg, cg')
    ensures WellFormed(cg) && InstructionInRange(ins, |cg.registerValues|, |cg.instructions| + 1) ==> WellFormed(cg')
  {
    var cg' := cg.(instructions := cg.instructions + [ins]);
    assert WellFormed(cg) && InstructionInRange(ins, |cg.registerValues|, |cg.instructions| + 1) ==> WellFormed(cg') by {
      if WellFormed(cg) && InstructionInRange(ins, |cg.registerValues|, |cg.instructions| + 1) {
        forall i | 0 <= i < |cg'.instructions|
          ensures InstructionInRange(cg'.instructions[i], |cg'.registerValues|, |cg'.instructions|)
        {
          if i < |cg.instructions| {
            InstructionInRangeMonotone(cg.instructions[i], |cg.registerValues|, |cg.instructions|,
              |cg'.registerValues|, |cg'.instructions|);
          }
        }
      }
    }
    cg'
  }

  /**
   * Overwrites the instruction at an already emitted position, the patch half
   * of the reserve-then-patch protocol for branches.
   */
  function Patch(cg: Codegen, at: InstructionId, ins: Instruction): (cg': Codegen)
    requires at < |cg.instructions|
    ensures |cg'.instructions| == |cg.instructions|
    ensures cg'.instructions[at] == ins
    ensures forall i :: 0 <= i < |cg.instructions| && i != at ==> cg'.instructions[i] == cg.instructions[i]
    ensures cg'.registerValues == cg.registerValues && cg'.registerTypes == cg.registerTypes
    ensures WellFormed(cg) && InstructionInRange(ins, |cg.registerValues|, |cg.instructions|) ==> WellFormed(cg')
  {
    cg.(instructions := cg.instructions[at := ins])
  }

  /**
   * `new_register_with_value`: pushes one payload and one type tag and returns
   * the index of the new slot.
   */
  function NewRegisterWithValue(cg: Codegen, value: int, ty: TypeId): (e: Emit)
    ensures Lockstep(cg) ==> Lockstep(e.cg)
    ensures e.reg == |cg.registerValues| && |e.cg.registerValues| == e.reg + 1
    ensures e.cg.registerValues[e.reg] == value
    ensures Lockstep(cg) ==> e.cg.registerTypes[e.reg] == ty
    ensures |e.cg.registerTypes| == |cg.registerTypes| + 1
    ensures e.cg.instructions == cg.instructions
    ensures Extends(cg, e.cg)
    ensures WellFormed(cg) ==> WellFormed(e.cg)
  {
    var cg' := cg.(registerValues := cg.registerValues + [value], registerTypes := cg.registerTypes + [ty]);
    assert WellFormed(cg) ==> WellFormed(cg') by {
      if WellFormed(cg) {
        forall i | 0 <= i < |cg'.instructions|
          ensures InstructionInRange(cg'.instructions[i], |cg'.registerValues|, |cg'.instructions|)
        {
          InstructionInRangeMonotone(cg.instructions[i], |cg.registerValues|, |cg.instructions|,
            |cg'.registerValues|, |cg'.instructions|);
        }
      }
    }
    Emit(cg', |cg'.registerValues| - 1)
  }

  /** `new_register`: a fresh register of the given type holding payload 0. */
  function NewRegister(cg: Codegen, ty: TypeId): (e: Emit)
    ensures e.reg == |cg.registerValues| && |e.cg.registerValues| == |cg.registerValues| + 1
    ensures e.cg.registerValues[e.reg] == 0
    ensures Lockstep(cg) ==> Lockstep(e.cg) && e.cg.registerTypes[e.reg] == ty
    ensures e.cg.instructions == cg.instructions && Extends(cg, e.cg)
    ensures WellFormed(cg) ==> WellFormed(e.cg)
  {
    NewRegisterWithValue(cg, 0, ty)
  }

  /** `i64_const`: a fresh I64 register preloaded with the constant. */
  function I64Const(cg: Codegen, value: int): (e: Emit)
    ensures e.reg == |cg.registerValues| && |e.cg.registerValues| == |cg.registerValues| + 1
    ensures e.cg.registerValues[e.reg] == value
    ensures Lockstep(cg) ==> Lockstep(e.cg) && e.cg.registerTypes[e.reg] == I64_TYPE
    ensures e.cg.instructions == cg.instructions && Extends(cg, e.cg)
    ensures WellFormed(cg) ==> WellFormed(e.cg)
  {
    NewRegisterWithValue(cg, value, I64_TYPE)
  }

  /**
   * `f64_const`: a fresh F64 register preloaded with the constant's bit
   * pattern. The literal reaches the model already reinterpreted as the i64
   * with the same bits.
   */
  function F64Const(cg: Codegen, bits: int): (e: Emit)
    ensures e.reg == |cg.registerValues| && |e.cg.registerValues| == |cg.registerValues| + 1
    ensures e.cg.registerValues[e.reg] == bits
    ensures Lockstep(cg) ==> Lockstep(e.cg) && e.cg.registerTypes[e.reg] == F64_TYPE
    ensures e.cg.instructions == cg.instructions && Extends(cg, e.cg)
    ensures WellFormed(cg) ==> WellFormed(e.cg)
  {
    NewRegisterWithValue(cg, bits, F64_TYPE)
  }

  /** `bool_const`: a fresh BOOL register holding 1 for true and 0 for false. */
  function BoolConst(cg: Codegen, value: bool): (e: Emit)
    ensures e.reg == |cg.registerValues| && |e.cg.registerValues| == |cg.registerValues| + 1
    ensures e.cg.registerValues[e.reg] == 1 <==> value
    ensures e.cg.registerValues[e.reg] == 0 <==> !value
    ensures Lockstep(cg) ==> Lockstep(e.cg) && e.cg.registerTypes[e.reg] == BOOL_TYPE
    ensures e.cg.instructions == cg.instructions && Extends(cg, e.cg)
    ensures WellFormed(cg) ==> WellFormed(e.cg)
  {
    if value then NewRegisterWithValue(cg, 1, BOOL_TYPE) else NewRegisterWithValue(cg, 0, BOOL_TYPE)
  }

  /**
   * `add`/`sub`/`mul`/`div`: on an F64 left operand a fresh F64 target and the
   * float opcode, on an I64 left operand a fresh I64 target and the integer
   * opcode; any other tag is an internal error.
   */
  function Arith(cg: Codegen, kind: ArithKind, lhs: RegisterId, rhs: RegisterId): (r: Result<Emit, Fault>)
    requires Lockstep(cg)
    ensures r.Success? <==> lhs < |cg.registerTypes| && cg.registerTypes[lhs] in {F64_TYPE, I64_TYPE}
    ensures lhs >= |cg.registerTypes| ==> r == Failure(RegisterOutOfRange(lhs))
    ensures lhs < |cg.registerTypes| && r.Failure? ==> r.error == UnsupportedOperand(cg.registerTypes[lhs])
    ensures r.Success? ==>
      var e := r.value;
      && e.reg == |cg.registerValues|
      && |e.cg.registerValues| == |cg.registerValues| + 1
      && Lockstep(e.cg)
      && e.cg.registerTypes[e.reg] == cg.registerTypes[lhs]
      && e.cg.registerValues[e.reg] == 0
      && |e.cg.instructions| == |cg.instructions| + 1
      && e.cg.instructions[|cg.instructions|]
         == Binary(ArithOpcode(kind, cg.registerTypes[lhs] == F64_TYPE), lhs, rhs, e.reg)
      && Extends(cg, e.cg)
    ensures r.Success? && WellFormed(cg) && rhs < |cg.registerValues| ==> WellFormed(r.value.cg)
  {
    if lhs >= |cg.registerTypes| then
      Failure(RegisterOutOfRange(lhs))
    else if cg.registerTypes[lhs] == F64_TYPE then
      var t := NewRegister(cg, F64_TYPE);
      Success(Emit(Append(t.cg, Binary(ArithOpcode(kind, true), lhs, rhs, t.reg)), t.reg))
    else if cg.registerTypes[lhs] == I64_TYPE then
      var t := NewRegister(cg, I64_TYPE);
      Success(Emit(Append(t.cg, Binary(ArithOpcode(kind, false), lhs, rhs, t.reg)), t.reg))
    else
      Failure(UnsupportedOperand(cg.registerTypes[lhs]))
  }

  /**
   * `lt`/`lte`/`gt`/`gte`: the BOOL target is allocated before the left
   * operand's tag is examined, so the tag is read from the grown register
   * file; then the float or integer comparison opcode is chosen as for
   * arithmetic.
   */
  function Compare(cg: Codegen, kind: CompareKind, lhs: RegisterId, rhs: RegisterId): (r: Result<Emit, Fault>)
    requires Lockstep(cg)
    ensures r.Success? <==> lhs < |cg.registerTypes| && cg.registerTypes[lhs] in {F64_TYPE, I64_TYPE}
    ensures lhs > |cg.registerTypes| ==> r == Failure(RegisterOutOfRange(lhs))
    ensures lhs == |cg.registerTypes| ==> r == Failure(UnsupportedOperand(BOOL_TYPE))
    ensures lhs < |cg.registerTypes| && r.Failure? ==> r.error == UnsupportedOperand(cg.registerTypes[lhs])
    ensures r.Success? ==>
      var e := r.value;
      && e.reg == |cg.registerValues|
      && |e.cg.registerValues| == |cg.registerValues| + 1
      && Lockstep(e.cg)
      && e.cg.registerTypes[e.reg] == BOOL_TYPE
      && e.cg.registerValues[e.reg] == 0
      && |e.cg.instructions| == |cg.instructions| + 1
      && e.cg.instructions[|cg.instructions|]
         == Binary(CompareOpcode(kind, cg.registerTypes[lhs] == F64_TYPE), lhs, rhs, e.reg)
      && Extends(cg, e.cg)
    ensures r.Success? && WellFormed(cg) && rhs < |cg.registerValues| ==> WellFormed(r.value.cg)
  {
    var t := NewRegister(cg, BOOL_TYPE);
    if lhs >= |t.cg.registerTypes| then
      Failure(RegisterOutOfRange(lhs))
    else if t.cg.registerTypes[lhs] == F64_TYPE then
      Success(Emit(Append(t.cg, Binary(CompareOpcode(kind, true), lhs, rhs, t.reg)), t.reg))
    else if t.cg.registerTypes[lhs] == I64_TYPE then
      Success(Emit(Append(t.cg, Binary(CompareOpcode(kind, false), lhs, rhs, t.reg)), t.reg))
    else
      Failure(UnsupportedOperand(t.cg.registerTypes[lhs]))
  }

  /**
   * `mov`: a move of a register onto itself emits nothing and yields the
   * source; any other move emits exactly one MOV and yields the target.
   */
  function Mov(cg: Codegen, target: RegisterId, source: RegisterId): (e: Emit)
    ensures target == source ==> e == Emit(cg, source)
    ensures target != source ==>
      && e.reg == target
      && |e.cg.instructions| == |cg.instructions| + 1
      && e.cg.instructions[|cg.instructions|] == MOV(target, source)
    ensures e.cg.registerValues == cg.registerValues && e.cg.registerTypes == cg.registerTypes
    ensures Extends(cg, e.cg)
    ensures WellFormed(cg) && target < |cg.registerValues| && source < |cg.registerValues| ==> WellFormed(e.cg)
  {
    if target == source then Emit(cg, source) else Emit(Append(cg, MOV(target, source)), target)
  }

  /** `brif`: emits one conditional branch and hands back the `target` register it was given. */
  function Brif(cg: Codegen, target: RegisterId, condition: RegisterId,
                thenBranch: InstructionId, elseBranch: InstructionId): (e: Emit)
    ensures e.reg == target
    ensures |e.cg.instructions| == |cg.instructions| + 1
    ensures e.cg.instructions[|cg.instructions|] == BRIF(condition, thenBranch, elseBranch)
    ensures e.cg.registerValues == cg.registerValues && e.cg.registerTypes == cg.registerTypes
    ensures Extends(cg, e.cg)
    ensures WellFormed(cg) && condition < |cg.registerValues|
            && thenBranch <= |cg.instructions| + 1 && elseBranch <= |cg.instructions| + 1
            ==> WellFormed(e.cg)
  {
    Emit(Append(cg, BRIF(condition, thenBranch, elseBranch)), target)
  }

  /** `jmp`: emits one unconditional jump. */
  function Jmp(cg: Codegen, location: InstructionId): (cg': Codegen)
    ensures |cg'.instructions| == |cg.instructions| + 1
    ensures cg'.instructions[|cg.instructions|] == JMP(location)
    ensures cg'.registerValues == cg.registerValues && cg'.registerTypes == cg.registerTypes
    ensures Extends(cg, cg')
    ensures WellFormed(cg) && location <= |cg.instructions| + 1 ==> WellFormed(cg')
  {
    Append(cg, JMP(location))
  }

  /** `external_call`: emits one call of a host function. */
  function ExternalCall(cg: Codegen, head: FunctionId, args: seq<RegisterId>, target: RegisterId): (cg': Codegen)
    ensures |cg'.instructions| == |cg.instructions| + 1
    ensures cg'.instructions[|cg.instructions|] == EXTERNALCALL(head, args, target)
    ensures cg'.registerValues == cg.registerValues && cg'.registerTypes == cg.registerTypes
    ensures Extends(cg, cg')
    ensures WellFormed(cg) && target < |cg.registerValues| && (forall a :: a in args ==> a < |cg.registerValues|)
            ==> WellFormed(cg')
  {
    Append(cg, EXTERNALCALL(head, args, target))
  }
}

=== FILE: examples.dfy ===
/**
 * Worked examples: two small trees translated and evaluated end to end.
 * `2 + 3` yields 5 tagged I64. `1 < 2` yields 1, but it is tagged with
 * whatever register 0 was created with, which is the I64 literal 1 and not
 * the BOOL comparison result, because the final `mov` copies the payload
 * and leaves the tag behind.
 */
module Examples {
  import opened Wrappers
  import opened Faults
  import opened Builder
  import opened Vm
  import opened Translator
  import opened Semantics

  const NoTables: TypeChecker := TypeChecker([], map[], map[])

  /** `2 + 3`: the operands, the operator token, then the operation as the root. */
  const AddTree: seq<AstNode> := [Int(2), Plus, Int(3), BinaryOp(0, 1, 2)]
  const AddBody: Codegen := Codegen([Binary(IADD, 0, 1, 2)], [2, 3, 0], [I64_TYPE, I64_TYPE, I64_TYPE])
  const AddCode: Codegen := AddBody.(instructions := AddBody.instructions + [MOV(0, 2)])

  /** `1 < 2`. */
  const LessTree: seq<AstNode> := [Int(1), LessThan, Int(2), BinaryOp(0, 1, 2)]
  const LessBody: Codegen := Codegen([Binary(ILT, 0, 1, 2)], [1, 2, 0], [I64_TYPE, I64_TYPE, BOOL_TYPE])
  const LessCode: Codegen := LessBody.(instructions := LessBody.instructions + [MOV(0, 2)])

  /**
   * `let x = 1; x = x + 1; x` as a block: node 0 names `x` at its `let`, and
   * the three later references to `x` resolve to that node.
   */
  const RebindTree: seq<AstNode> := [
    Variable, Int(1), Let(0, 1),
    Variable, Assignment, Variable, Plus, Int(1), BinaryOp(5, 6, 7), BinaryOp(3, 4, 8),
    Variable, Block([2, 9, 10])]
  const RebindTables: TypeChecker := TypeChecker([], map[3 := 0, 5 := 0, 10 := 0], map[])
  const RebindSum: Codegen := Codegen([Binary(IADD, 0, 1, 2)], [1, 1, 0], [I64_TYPE, I64_TYPE, I64_TYPE])
  const RebindCode: Codegen := RebindSum.(instructions := RebindSum.instructions + [MOV(0, 2)])
  /** The translation state right after the `let`, and at the end of the block. */
  const RebindBound: TState := TState(Codegen([], [1], [I64_TYPE]), map[0 := 0])
  const RebindDone: TState := TState(RebindCode, map[0 := 0])

  /** An integer literal in an empty builder becomes register 0, without code. */
  lemma FirstLiteral(ast: seq<AstNode>, x: int)
    requires |ast| == 4 && ast[0] == Int(x) && IsI64(x)
    ensures TranslateNode(ast, NoTables, TState(EmptyCodegen, map[]), 0, 4)
            == Success(Lowered(TState(Codegen([], [x], [I64_TYPE]), map[]), 0))
  {
    assert I64Const(EmptyCodegen, x) == Emit(Codegen([], [x], [I64_TYPE]), 0);
  }

  /** A second integer literal becomes register 1, without code. */
  lemma SecondLiteral(ast: seq<AstNode>, x: int, y: int)
    requires |ast| == 4 && ast[2] == Int(y) && IsI64(y)
    ensures TranslateNode(ast, NoTables, TState(Codegen([], [x], [I64_TYPE]), map[]), 2, 4)
            == Success(Lowered(TState(Codegen([], [x, y], [I64_TYPE, I64_TYPE]), map[]), 1))
  {
    assert I64Const(Codegen([], [x], [I64_TYPE]), y) == Emit(Codegen([], [x, y], [I64_TYPE, I64_TYPE]), 1);
  }

  lemma AddEmits()
    ensures WellFormed(Codegen([], [2, 3], [I64_TYPE, I64_TYPE]))
    ensures EmitOperator(Codegen([], [2, 3], [I64_TYPE, I64_TYPE]), Plus, 1, 0, 1) == Success(Emit(AddBody, 2))
  {
    assert NewRegister(Codegen([], [2, 3], [I64_TYPE, I64_TYPE]), I64_TYPE) == Emit(AddBody.(instructions := []), 2);
    assert Append(AddBody.(instructions := []), Binary(IADD, 0, 1, 2)) == AddBody;
  }

  lemma LessEmits()
    ensures WellFormed(Codegen([], [1, 2], [I64_TYPE, I64_TYPE]))
    ensures EmitOperator(Codegen([], [1, 2], [I64_TYPE, I64_TYPE]), LessThan, 1, 0, 1) == Success(Emit(LessBody, 2))
  {
    assert NewRegister(Codegen([], [1, 2], [I64_TYPE, I64_TYPE]), BOOL_TYPE) == Emit(LessBody.(instructions := []), 2);
    assert Append(LessBody.(instructions := []), Binary(ILT, 0, 1, 2)) == LessBody;
  }

  lemma AddOperation()
    ensures TranslateBinop(AddTree, NoTables, TState(EmptyCodegen, map[]), 0, 1, 2, 4)
            == Success(Lowered(TState(AddBody, map[]), 2))
  {
    FirstLiteral(AddTree, 2);
    SecondLiteral(AddTree, 2, 3);
    AddEmits();
  }

  lemma AddTranslates()
    ensures Translate(AddTree, NoTables, 5) == Success(AddCode)
  {
    AddOperation();
  }

  lemma LessOperation()
    ensures TranslateBinop(LessTree, NoTables, TState(EmptyCodegen, map[]), 0, 1, 2, 4)
            == Success(Lowered(TState(LessBody, map[]), 2))
  {
    FirstLiteral(LessTree, 1);
    SecondLiteral(LessTree, 1, 2);
    LessEmits();
  }

  lemma LessTranslates()
    ensures Translate(LessTree, NoTables, 5) == Success(LessCode)
  {
    LessOperation();
  }

  /** `2 + 3` evaluates to 5, tagged I64, as its denotation says. */
  lemma AddEvaluates(env: Env)
    ensures Denote(env.floats, AddTree, 3, 5) == Success(Value(5, I64_TYPE))
    ensures Eval(env, AddCode, 2) == Success((5, I64_TYPE))
  {
    AddTranslates();
    CompiledExpressionEvaluates(env, AddTree, NoTables, 5, 2);
  }

  /**
   * `1 < 2` denotes the BOOL value 1, yet `eval` reports the tag of register
   * 0, the first literal's I64.
   */
  lemma LessReportsFirstLiteralTag(env: Env)
    ensures Denote(env.floats, LessTree, 3, 5) == Success(Value(1, BOOL_TYPE))
    ensures Eval(env, LessCode, 2) == Success((1, I64_TYPE))
  {
    LessTranslates();
    CompiledExpressionEvaluates(env, LessTree, NoTables, 5, 2);
  }

  /** One level of `translate_node`'s dispatch, for the node kinds the examples use. */
  lemma Dispatch(ast: seq<AstNode>, tc: TypeChecker, st: TState, node: NodeId, fuel: nat)
    requires Inv(st) && 0 < fuel && node < |ast|
    ensures ast[node].Int? && IsI64(ast[node].value) ==>
      TranslateNode(ast, tc, st, node, fuel) == Success(Lift(st, I64Const(st.cg, ast[node].value)))
    ensures ast[node].Variable? ==> TranslateNode(ast, tc, st, node, fuel) == TranslateVariable(tc, st, node)
    ensures ast[node].Let? ==>
      TranslateNode(ast, tc, st, node, fuel)
      == TranslateLet(ast, tc, st, ast[node].variableName, ast[node].initializer, fuel - 1)
    ensures ast[node].BinaryOp? ==>
      TranslateNode(ast, tc, st, node, fuel)
      == TranslateBinop(ast, tc, st, ast[node].lhs, ast[node].op, ast[node].rhs, fuel - 1)
    ensures ast[node].Block? ==>
      TranslateNode(ast, tc, st, node, fuel) == TranslateBlock(ast, tc, st, ast[node].nodes, fuel - 1)
  {
  }

  /** A binary-operation node whose operands lowered as given is its operator emitted after them. */
  lemma BinopNode(ast: seq<AstNode>, tc: TypeChecker, st: TState, node: NodeId, lhs: NodeId, op: NodeId, rhs: NodeId,
                  fuel: nat, l: Lowered, rr: Lowered, out: Lowered)
    requires Inv(st) && 0 < fuel && node < |ast| && ast[node] == BinaryOp(lhs, op, rhs) && op < |ast|
    requires TranslateNode(ast, tc, st, lhs, fuel - 1) == Success(l)
    requires TranslateNode(ast, tc, l.st, rhs, fuel - 1) == Success(rr)
    requires EmitBinop(rr, ast[op], op, l.reg) == Success(out)
    ensures TranslateNode(ast, tc, st, node, fuel) == Success(out)
  {
    Dispatch(ast, tc, st, node, fuel);
  }

  /** A block of more than one statement lowers as the sequence of its statements. */
  lemma BlockNode(ast: seq<AstNode>, tc: TypeChecker, st: TState, node: NodeId, nodes: seq<NodeId>, fuel: nat)
    requires Inv(st) && 0 < fuel && node < |ast| && ast[node] == Block(nodes) && 1 < |nodes|
    ensures TranslateNode(ast, tc, st, node, fuel) == TranslateSequence(ast, tc, st, nodes, fuel - 1)
  {
    Dispatch(ast, tc, st, node, fuel);
  }

  /** Once the first statement is lowered, the rest of the sequence starts from its state. */
  lemma SequenceStep(ast: seq<AstNode>, tc: TypeChecker, st: TState, nodes: seq<NodeId>, fuel: nat, first: Lowered)
    requires Inv(st) && 1 < |nodes| && TranslateNode(ast, tc, st, nodes[0], fuel) == Success(first)
    ensures Inv(first.st)
    ensures TranslateSequence(ast, tc, st, nodes, fuel) == TranslateSequence(ast, tc, first.st, nodes[1..], fuel)
  {
  }

  /** The nodes and table entries of `RebindTree` the steps below read. */
  ghost predicate RebindShape(ast: seq<AstNode>, tc: TypeChecker) {
    && |ast| == 12
    && ast[1] == Int(1) && ast[2] == Let(0, 1)
    && ast[3] == Variable && ast[4] == Assignment && ast[5] == Variable && ast[6] == Plus && ast[7] == Int(1)
    && ast[8] == BinaryOp(5, 6, 7) && ast[9] == BinaryOp(3, 4, 8)
    && ast[10] == Variable && ast[11] == Block([2, 9, 10])
    && 3 in tc.variableDef && tc.variableDef[3] == 0
    && 5 in tc.variableDef && tc.variableDef[5] == 0
    && 10 in tc.variableDef && tc.variableDef[10] == 0
  }

  /** `let x = 1` binds x to the literal's register 0. */
  lemma RebindLet(ast: seq<AstNode>, tc: TypeChecker)
    requires RebindShape(ast, tc)
    ensures TranslateNode(ast, tc, TState(EmptyCodegen, map[]), 2, 4)
            == Success(Lowered(RebindBound, 0))
  {
    var empty := TState(EmptyCodegen, map[]);
    Dispatch(ast, tc, empty, 2, 4);
    Dispatch(ast, tc, empty, 1, 3);
    assert I64Const(EmptyCodegen, 1) == Emit(Codegen([], [1], [I64_TYPE]), 0);
  }

  /** The states the example passes through keep the translator invariant. */
  lemma RebindStates()
    ensures Inv(RebindBound)
    ensures Inv(TState(Codegen([], [1, 1], [I64_TYPE, I64_TYPE]), map[0 := 0]))
    ensures Inv(TState(RebindSum, map[0 := 0]))
    ensures Inv(RebindDone)
  {
  }

  /** The `+` adds registers 0 and 1 into a fresh I64 register 2. */
  lemma RebindAddEmits()
    ensures EmitBinop(Lowered(TState(Codegen([], [1, 1], [I64_TYPE, I64_TYPE]), map[0 := 0]), 1), Plus, 6, 0)
            == Success(Lowered(TState(RebindSum, map[0 := 0]), 2))
  {
    var literal := Codegen([], [1, 1], [I64_TYPE, I64_TYPE]);
    RebindStates();
    assert NewRegister(literal, I64_TYPE) == Emit(RebindSum.(instructions := []), 2);
    assert Append(RebindSum.(instructions := []), Binary(IADD, 0, 1, 2)) == RebindSum;
    assert EmitOperator(literal, Plus, 6, 0, 1) == Success(Emit(RebindSum, 2));
  }

  /** The `=` moves the sum in register 2 back into x's register 0. */
  lemma RebindMoveEmits()
    ensures EmitBinop(Lowered(TState(RebindSum, map[0 := 0]), 2), Assignment, 4, 0)
            == Success(Lowered(RebindDone, 0))
  {
    RebindStates();
    assert EmitOperator(RebindSum, Assignment, 4, 0, 2) == Success(Emit(RebindCode, 0));
  }

  /** `x + 1` reads x's register 0 and adds a fresh literal register. */
  lemma RebindSumLowered(ast: seq<AstNode>, tc: TypeChecker)
    requires RebindShape(ast, tc)
    ensures TranslateNode(ast, tc, RebindBound, 8, 3)
            == Success(Lowered(TState(RebindSum, map[0 := 0]), 2))
  {
    var before := RebindBound;
    var literal := TState(Codegen([], [1, 1], [I64_TYPE, I64_TYPE]), map[0 := 0]);
    RebindStates();
    Dispatch(ast, tc, before, 5, 2);
    Dispatch(ast, tc, before, 7, 2);
    assert I64Const(before.cg, 1) == Emit(literal.cg, 1);
    RebindAddEmits();
    BinopNode(ast, tc, before, 8, 5, 6, 7, 3, Lowered(before, 0), Lowered(literal, 1), Lowered(TState(RebindSum, map[0 := 0]), 2));
  }

  /** `x = x + 1` moves the sum back into x's own register 0, which stays x's. */
  lemma RebindAssign(ast: seq<AstNode>, tc: TypeChecker)
    requires RebindShape(ast, tc)
    ensures TranslateNode(ast, tc, RebindBound, 9, 4)
            == Success(Lowered(RebindDone, 0))
  {
    var before := RebindBound;
    var sum := TState(RebindSum, map[0 := 0]);
    RebindStates();
    Dispatch(ast, tc, before, 3, 3);
    RebindSumLowered(ast, tc);
    RebindMoveEmits();
    BinopNode(ast, tc, before, 9, 3, 4, 8, 4, Lowered(before, 0), Lowered(sum, 2), Lowered(RebindDone, 0));
  }

  /** The final `x` reads register 0, which now holds the sum. */
  lemma RebindReadsSum(ast: seq<AstNode>, tc: TypeChecker)
    requires RebindShape(ast, tc)
    ensures TranslateNode(ast, tc, RebindDone, 10, 4)
            == Success(Lowered(RebindDone, 0))
  {
    RebindStates();
    Dispatch(ast, tc, RebindDone, 10, 4);
  }

  /** The last statement, `x`, reads register 0 after the move. */
  lemma RebindTail(ast: seq<AstNode>, tc: TypeChecker)
    requires RebindShape(ast, tc)
    ensures TranslateSequence(ast, tc, RebindDone, [10], 4) == Success(Lowered(RebindDone, 0))
  {
    RebindReadsSum(ast, tc);
  }

  /** `x = x + 1; x`, from the state right after the `let`. */
  lemma RebindRest(ast: seq<AstNode>, tc: TypeChecker)
    requires RebindShape(ast, tc)
    ensures TranslateSequence(ast, tc, RebindBound, [9, 10], 4)
            == Success(Lowered(RebindDone, 0))
  {
    RebindAssign(ast, tc);
    SequenceStep(ast, tc, RebindBound, [9, 10], 4, Lowered(RebindDone, 0));
    assert [9, 10][1..] == [10];
    RebindTail(ast, tc);
  }

  /** All three statements, from the empty state. */
  lemma RebindStatements(ast: seq<AstNode>, tc: TypeChecker)
    requires RebindShape(ast, tc)
    ensures TranslateSequence(ast, tc, TState(EmptyCodegen, map[]), [2, 9, 10], 4)
            == Success(Lowered(RebindDone, 0))
  {
    RebindLet(ast, tc);
    SequenceStep(ast, tc, TState(EmptyCodegen, map[]), [2, 9, 10], 4, Lowered(RebindBound, 0));
    assert [2, 9, 10][1..] == [9, 10];
    RebindRest(ast, tc);
  }

  /** The block's value is the final `x`, still register 0. */
  lemma RebindBlock(ast: seq<AstNode>, tc: TypeChecker)
    requires RebindShape(ast, tc)
    ensures TranslateNode(ast, tc, TState(EmptyCodegen, map[]), 11, 5)
            == Success(Lowered(RebindDone, 0))
  {
    RebindStatements(ast, tc);
    BlockNode(ast, tc, TState(EmptyCodegen, map[]), 11, [2, 9, 10], 5);
  }

  /** `let x = 1; x = x + 1; x` translates to the sum and a move back into register 0. */
  lemma RebindTranslates()
    ensures Translate(RebindTree, RebindTables, 5) == Success(RebindCode)
  {
    assert RebindShape(RebindTree, RebindTables);
    RebindBlock(RebindTree, RebindTables);
  }

  /**
   * `eval` of `let x = 1; x = x + 1; x` reports 2 tagged I64: the final
   * reference sees the assignment through the register the `let` bound.
   */
  lemma RebindEvaluates(env: Env)
    ensures Translate(RebindTree, RebindTables, 5) == Success(RebindCode)
    ensures Eval(env, RebindCode, 2) == Success((2, I64_TYPE))
  {
    RebindTranslates();
  }

  /**
   * A two-argument host given one argument whose register is outside the
   * file faults on that register, not on the missing second argument.
   */
  lemma ShortCallReadsFirstArgument(f: (int, int) -> HostReturn)
    ensures CallHost([ExternalFn2(f)], 0, [5], [7]) == Failure(RegisterOutOfRange(5))
    ensures CallHost([ExternalFn2(f)], 0, [0], [7]) == Failure(MissingArgument)
  {
  }
}

=== FILE: faults.dfy ===
/**
 * The unrecoverable internal errors of the engine. The Rust code panics in each
 * of these situations; the model returns them as `Failure` values instead, so
 * that every contract can say exactly when a panic happens.
 */
module Faults {

  datatype Fault =
    // A register index past the end of the register file (a Vec index panic).
    | RegisterOutOfRange(register: nat)
    // An arithmetic or comparison helper was asked to work on a type tag other
    // than F64 or I64 ("unsupport add operation" and its siblings).
    | UnsupportedOperand(tag: nat)
    // A syntax-node index past the end of the node list or the type table.
    | NodeOutOfRange(node: nat)
    // A node kind the translator does not lower ("unsupported translation").
    | UnsupportedNode(node: nat)
    // The operator node of a binary operation is not an operator.
    | UnsupportedOperator(node: nat)
    // An integer literal whose value does not fit in an i64.
    | MalformedLiteral(node: nat)
    // A variable reference missing from the resolution table.
    | UnresolvedVariable(node: nat)
    // A resolved definition site that no `let` has registered yet.
    | MissingDefinition(node: nat)
    // A call whose head is missing from the call-resolution table.
    | UnresolvedCall(node: nat)
    // An i64 addition, subtraction, multiplication or division overflowed.
    | Overflow
    // An i64 division by zero.
    | DivisionByZero
    // A call instruction names a function identifier past the function table.
    | NoSuchFunction(head: nat)
    // A call instruction has fewer argument registers than the callee reads.
    | MissingArgument
    // The host callable returned an error, which the engine unwraps.
    | HostFailed
    // The recursion or step budget given to the model ran out.
    | OutOfFuel
}

=== FILE: properties.dfy ===
/**
 * Properties that connect the builder, the translator and the interpreter:
 * what the opcodes the builder picks compute at run time, where control goes
 * from the branches the translator patches, how variables alias registers,
 * and what `eval` does with the code `translate` produces.
 */
module Properties {
  import opened Wrappers
  import opened Faults
  import opened Builder
  import opened Vm
  import opened Translator

  /** Rust's i64 arithmetic, written independently of the opcode table. */
  function IntArith(kind: ArithKind, a: int, b: int): Result<int, Fault> {
    match kind
    case Add => if IsI64(a + b) then Success(a + b) else Failure(Overflow)
    case Sub => if IsI64(a - b) then Success(a - b) else Failure(Overflow)
    case Mul => if IsI64(a * b) then Success(a * b) else Failure(Overflow)
    case Div =>
      if b == 0 then Failure(DivisionByZero)
      else if IsI64(TruncDiv(a, b)) then Success(TruncDiv(a, b))
      else Failure(Overflow)
  }

  /** The float operation a kind names, on bit-pattern payloads. */
  function FloatArith(floats: FloatOps, kind: ArithKind, a: int, b: int): int {
    match kind
    case Add => floats.add(a, b)
    case Sub => floats.sub(a, b)
    case Mul => floats.mul(a, b)
    case Div => floats.div(a, b)
  }

  /** The relation a comparison kind names, on integers. */
  predicate IntRelation(kind: CompareKind, a: int, b: int) {
    match kind
    case Lt => a < b
    case Lte => a <= b
    case Gt => a > b
    case Gte => a >= b
  }

  /**
   * Type-directed dispatch is right: the opcode chosen for an I64 left operand
   * does i64 arithmetic, the one chosen for an F64 left operand does the float
   * operation, and comparisons yield 1 exactly when the relation holds.
   */
  lemma OpcodeSelectionMeaning(floats: FloatOps, a: int, b: int)
    ensures forall kind :: ApplyOpcode(floats, ArithOpcode(kind, false), a, b) == IntArith(kind, a, b)
    ensures forall kind :: ApplyOpcode(floats, ArithOpcode(kind, true), a, b) == Success(FloatArith(floats, kind, a, b))
    ensures forall kind :: ApplyOpcode(floats, CompareOpcode(kind, false), a, b)
                           == Success(if IntRelation(kind, a, b) then 1 else 0)
  {
    forall kind: ArithKind
      ensures ApplyOpcode(floats, ArithOpcode(kind, false), a, b) == IntArith(kind, a, b)
    {
      match kind
      case Add =>
      case Sub =>
      case Mul =>
      case Div =>
    }
  }

  /**
   * The only i64 division with i64 operands that overflows is the most
   * negative value divided by -1.
   */
  lemma {:induction false} DivisionOverflow(a: int, b: int)
    requires IsI64(a) && IsI64(b) && b != 0
    ensures IsI64(TruncDiv(a, b)) <==> !(a == I64_MIN && b == -1)
  {
    var q := TruncDiv(a, b);
    if b == -1 {
      assert Abs(a - q * b) < 1;
      assert q == -a;
    } else if b == 1 {
      assert Abs(a - q * b) < 1;
      assert q == a;
    } else {
      assert q == Abs(a) / Abs(b) || q == -(Abs(a) / Abs(b));
      QuotientBound(Abs(a), Abs(b));
    }
  }

  lemma QuotientBound(x: nat, y: int)
    requires x <= -I64_MIN && y >= 2
    ensures x / y <= -I64_MIN / 2
  {
    var q := x / y;
    assert q * y <= x;
    ScaleMonotone(q, 2, y);
  }

  lemma ScaleMonotone(k: nat, small: int, large: int)
    requires small <= large
    ensures k * small <= k * large
  {
    assert k * large - k * small == k * (large - small);
  }

  /**
   * Eliding `mov(r, r)` loses nothing: executing a MOV of a register onto
   * itself would only advance the program counter.
   */
  lemma SelfMoveIsNoOp(env: Env, m: Machine)
    requires m.pc < |m.code.instructions|
    requires m.code.instructions[m.pc].MOV?
    requires m.code.instructions[m.pc].target == m.code.instructions[m.pc].source
    requires m.code.instructions[m.pc].source < |m.code.registerValues|
    ensures Step(env, m) == Success(m.(pc := m.pc + 1))
  {
    var values := m.code.registerValues;
    var r := m.code.instructions[m.pc].source;
    assert values[r := values[r]] == values;
  }

  /** At run time an integer comparison leaves exactly 0 or 1 in its target. */
  lemma IntComparisonWritesBoolean(env: Env, m: Machine)
    requires m.pc < |m.code.instructions|
    requires m.code.instructions[m.pc].Binary?
    requires m.code.instructions[m.pc].op in {ILT, ILTE, IGT, IGTE}
    requires Step(env, m).Success?
    ensures
      var ins := m.code.instructions[m.pc];
      var v := Step(env, m).value.code.registerValues[ins.target];
      && (v == 0 || v == 1)
      && var a := m.code.registerValues[ins.lhs];
      && var b := m.code.registerValues[ins.rhs];
      && (ins.op == ILT ==> (v == 1 <==> a < b))
      && (ins.op == ILTE ==> (v == 1 <==> a <= b))
      && (ins.op == IGT ==> (v == 1 <==> a > b))
      && (ins.op == IGTE ==> (v == 1 <==> a >= b))
  {
  }

  /**
   * Executing the branch an `if` patched: a nonzero condition enters the then
   * code right after the branch; zero skips to the else code, which starts
   * just past the jump over it, or, without an else branch, to the end.
   */
  lemma IfBranchDispatch(env: Env, m: Machine, hasElse: bool)
    requires m.pc < |m.code.instructions|
    requires PatchedIfBranch(m.code.instructions, m.pc, hasElse)
    requires m.code.instructions[m.pc].condition < |m.code.registerValues|
    ensures Step(env, m).Success?
    ensures Step(env, m).value.code == m.code
    ensures
      var next := Step(env, m).value.pc;
      var n := |m.code.instructions|;
      && (m.code.registerValues[m.code.instructions[m.pc].condition] != 0 ==> next == m.pc + 1)
      && (m.code.registerValues[m.code.instructions[m.pc].condition] == 0 && hasElse ==>
            m.pc + 1 < next <= n && m.code.instructions[next - 1] == JMP(n))
      && (m.code.registerValues[m.code.instructions[m.pc].condition] == 0 && !hasElse ==> next == n)
  {
  }

  /**
   * Executing a translated `if` at its branch: the step tests the register
   * its condition was lowered into. A nonzero value enters the then code,
   * which is kept right after the branch; zero skips the then code, to just
   * past the jump over the else code or, without an else branch, to the end.
   */
  lemma TranslatedIfTestsCondition(env: Env, ast: seq<AstNode>, tc: TypeChecker, st: TState, node: NodeId,
                                   condition: NodeId, thenBlock: NodeId, elseExpression: Option<NodeId>,
                                   fuel: nat, m: Machine)
    requires Inv(st)
    requires TranslateIf(ast, tc, st, node, condition, thenBlock, elseExpression, fuel).Success?
    requires m.code == TranslateIf(ast, tc, st, node, condition, thenBlock, elseExpression, fuel).value.st.cg
    requires m.pc == |TranslateNode(ast, tc, Frame(st, tc.nodeTypes[node]), condition, fuel).value.st.cg.instructions|
    ensures
      var c := TranslateNode(ast, tc, Frame(st, tc.nodeTypes[node]), condition, fuel).value;
      var n := |m.code.instructions|;
      && c.reg < |m.code.registerValues|
      && Step(env, m).Success? && Step(env, m).value.code == m.code
      && (m.code.registerValues[c.reg] != 0 ==> Step(env, m).value.pc == m.pc + 1)
      && (m.code.registerValues[c.reg] == 0 && elseExpression.Some? ==>
            m.pc + 1 < Step(env, m).value.pc <= n && m.code.instructions[Step(env, m).value.pc - 1] == JMP(n))
      && (m.code.registerValues[c.reg] == 0 && elseExpression.None? ==> Step(env, m).value.pc == n)
  {
    IfBranchDispatch(env, m, elseExpression.Some?);
  }

  /**
   * Executing a translated `while` at its branch: the step tests the register
   * its condition was lowered into, entering the body just after the branch
   * on a nonzero value and leaving past the jump back to the top on zero.
   */
  lemma TranslatedLoopTestsCondition(env: Env, ast: seq<AstNode>, tc: TypeChecker, st: TState,
                                     condition: NodeId, block: NodeId, fuel: nat, m: Machine)
    requires Inv(st)
    requires TranslateWhile(ast, tc, st, condition, block, fuel).Success?
    requires m.code == TranslateWhile(ast, tc, st, condition, block, fuel).value.st.cg
    requires m.pc == |TranslateNode(ast, tc, Frame(st, VOID_TYPE), condition, fuel).value.st.cg.instructions|
    ensures
      var c := TranslateNode(ast, tc, Frame(st, VOID_TYPE), condition, fuel).value;
      && c.reg < |m.code.registerValues|
      && Step(env, m).Success? && Step(env, m).value.code == m.code
      && (m.code.registerValues[c.reg] != 0 ==> Step(env, m).value.pc == m.pc + 1)
      && (m.code.registerValues[c.reg] == 0 ==> Step(env, m).value.pc == |m.code.instructions|)
  {
  }

  /**
   * Executing a translated `while` whose code ends the program: the final
   * jump returns to the loop top, and a zero condition at the patched branch
   * leaves the loop and so ends the run.
   */
  lemma LoopControl(env: Env, before: Codegen, m: Machine, fuel: nat)
    requires LoopPatched(before, m.code)
    ensures m.pc == |m.code.instructions| - 1 ==> Step(env, m) == Success(m.(pc := |before.instructions|))
    ensures m.pc < |m.code.instructions| && PatchedLoopBranch(m.code.instructions, m.pc)
            && m.code.instructions[m.pc].condition < |m.code.registerValues|
            && m.code.registerValues[m.code.instructions[m.pc].condition] == 0
            ==> Step(env, m).Success? && Run(env, m, fuel + 1) == Success(Step(env, m).value)
  {
    if m.pc < |m.code.instructions| && PatchedLoopBranch(m.code.instructions, m.pc)
       && m.code.instructions[m.pc].condition < |m.code.registerValues|
       && m.code.registerValues[m.code.instructions[m.pc].condition] == 0 {
      var m' := Step(env, m).value;
      assert m'.pc == |m.code.instructions|;
    }
  }

  /**
   * A variable reference resolved to a `let` just translated yields the very
   * register the initializer produced.
   */
  lemma LetThenVariableAliases(ast: seq<AstNode>, tc: TypeChecker, st: TState,
                               variableName: NodeId, initializer: NodeId, reference: NodeId, fuel: nat)
    requires Inv(st)
    requires TranslateLet(ast, tc, st, variableName, initializer, fuel).Success?
    requires reference in tc.variableDef && tc.variableDef[reference] == variableName
    ensures
      var l := TranslateLet(ast, tc, st, variableName, initializer, fuel).value;
      && l.reg == TranslateNode(ast, tc, st, initializer, fuel).value.reg
      && TranslateVariable(tc, l.st, reference) == Success(Lowered(l.st, l.reg))
  {
  }

  /**
   * Assignment to a variable does not create a binding: the value of
   * `x = e` is x's own register, and when e lands elsewhere the last
   * instruction moves it into that register.
   */
  lemma AssignmentWritesVariableRegister(ast: seq<AstNode>, tc: TypeChecker, st: TState,
                                         lhs: NodeId, op: NodeId, rhs: NodeId, fuel: nat)
    requires Inv(st)
    requires lhs < |ast| && ast[lhs].Variable? && op < |ast| && ast[op].Assignment?
    requires 0 < fuel
    requires TranslateBinop(ast, tc, st, lhs, op, rhs, fuel).Success?
    ensures lhs in tc.variableDef && tc.variableDef[lhs] in st.varLookup
    ensures TranslateNode(ast, tc, st, lhs, fuel) == Success(Lowered(st, st.varLookup[tc.variableDef[lhs]]))
    ensures TranslateNode(ast, tc, st, rhs, fuel).Success?
    ensures
      var x := st.varLookup[tc.variableDef[lhs]];
      var r := TranslateBinop(ast, tc, st, lhs, op, rhs, fuel).value;
      var e := TranslateNode(ast, tc, st, rhs, fuel).value;
      && r.reg == x
      && (e.reg != x ==> r.st.cg.instructions == e.st.cg.instructions + [MOV(x, e.reg)])
      && (e.reg == x ==> r.st.cg == e.st.cg)
  {
    var l := TranslateNode(ast, tc, st, lhs, fuel);
    assert l == TranslateVariable(tc, st, lhs);
    var e := TranslateNode(ast, tc, st, rhs, fuel).value;
    var emitted := EmitOperator(e.st.cg, ast[op], op, l.value.reg, e.reg);
    assert TranslateBinop(ast, tc, st, lhs, op, rhs, fuel) == Success(Lowered(e.st.(cg := emitted.value.cg), emitted.value.reg));
  }

  /** An empty tree translates to nothing, and evaluating it reads a register that does not exist. */
  lemma EmptyTreeEvalFaults(env: Env, tc: TypeChecker, fuel: nat, evalFuel: nat)
    ensures Translate([], tc, fuel) == Success(EmptyCodegen)
    ensures Eval(env, EmptyCodegen, evalFuel) == Failure(RegisterOutOfRange(0))
  {
  }

  /**
   * Code produced from a non-empty tree never indexes outside its register
   * file, and the type `eval` reports is the tag register 0 was created with.
   */
  lemma TranslatedEvalStaysInRegisters(env: Env, ast: seq<AstNode>, tc: TypeChecker, fuel: nat, evalFuel: nat)
    requires 0 < |ast|
    requires Translate(ast, tc, fuel).Success?
    ensures
      var cg := Translate(ast, tc, fuel).value;
      var r := Eval(env, cg, evalFuel);
      && !(r.Failure? && r.error.RegisterOutOfRange?)
      && (r.Success? ==> r.value.1 == cg.registerTypes[0])
  {
  }

  /**
   * The value of a non-empty block is the register of its last statement,
   * lowered from a state the statements before it left behind.
   */
  lemma BlockValueIsLastStatement(ast: seq<AstNode>, tc: TypeChecker, st: TState, nodes: seq<NodeId>, fuel: nat)
    requires Inv(st) && 0 < |nodes|
    requires TranslateBlock(ast, tc, st, nodes, fuel).Success?
    ensures exists s :: Inv(s) && Grows(st, s)
                        && TranslateNode(ast, tc, s, nodes[|nodes| - 1], fuel) == TranslateBlock(ast, tc, st, nodes, fuel)
  {
    var s := SequenceValueIsLast(ast, tc, st, nodes, nodes[|nodes| - 1], fuel, TranslateBlock(ast, tc, st, nodes, fuel).value);
  }

  /**
   * The state the last statement `last` of a non-empty block is lowered from,
   * given the block's result `r`.
   */
  lemma {:induction false} SequenceValueIsLast(ast: seq<AstNode>, tc: TypeChecker, st: TState, nodes: seq<NodeId>,
                                               last: NodeId, fuel: nat, r: Lowered)
    returns (s: TState)
    requires Inv(st) && 0 < |nodes| && nodes[|nodes| - 1] == last
    requires TranslateSequence(ast, tc, st, nodes, fuel) == Success(r)
    ensures Inv(s) && Grows(st, s)
    ensures TranslateNode(ast, tc, s, last, fuel) == Success(r)
    decreases |nodes|
  {
    if |nodes| == 1 {
      s := st;
    } else {
      var first, rest := SequenceRest(ast, tc, st, nodes, fuel, r);
      s := SequenceValueIsLast(ast, tc, first.st, rest, last, fuel, r);
      GrowsTransitive(st, first.st, s);
    }
  }

  /** A block of several statements continues from the state its first statement leaves. */
  lemma SequenceRest(ast: seq<AstNode>, tc: TypeChecker, st: TState, nodes: seq<NodeId>, fuel: nat, r: Lowered)
    returns (first: Lowered, rest: seq<NodeId>)
    requires Inv(st) && 1 < |nodes|
    requires TranslateSequence(ast, tc, st, nodes, fuel) == Success(r)
    ensures TranslateNode(ast, tc, st, nodes[0], fuel) == Success(first)
    ensures Inv(first.st) && Grows(st, first.st)
    ensures rest == nodes[1..] && 0 < |rest| < |nodes| && rest[|rest| - 1] == nodes[|nodes| - 1]
    ensures TranslateSequence(ast, tc, first.st, rest, fuel) == Success(r)
  {
    first := TranslateNode(ast, tc, st, nodes[0], fuel).value;
    rest := nodes[1..];
  }

  /**
   * Call arguments are lowered left to right: the first from the state the
   * call starts in, the rest from the state the first one leaves.
   */
  lemma ArgumentsInOrder(ast: seq<AstNode>, tc: TypeChecker, st: TState, args: seq<NodeId>, fuel: nat)
    requires Inv(st) && 0 < |args|
    requires TranslateArgs(ast, tc, st, args, fuel).Success?
    ensures TranslateNode(ast, tc, st, args[0], fuel).Success?
    ensures
      var r := TranslateArgs(ast, tc, st, args, fuel).value;
      var first := TranslateNode(ast, tc, st, args[0], fuel).value;
      && r.regs[0] == first.reg
      && TranslateArgs(ast, tc, first.st, args[1..], fuel) == Success(LoweredArgs(r.st, r.regs[1..]))
  {
    var first := TranslateNode(ast, tc, st, args[0], fuel).value;
    var rest := TranslateArgs(ast, tc, first.st, args[1..], fuel).value;
    assert ([first.reg] + rest.regs)[1..] == rest.regs;
  }

  /** The i-th argument register is the register some lowering of the i-th argument produced. */
  lemma {:induction false} ArgumentsLowered(ast: seq<AstNode>, tc: TypeChecker, st: TState, args: seq<NodeId>, fuel: nat)
    requires Inv(st)
    requires TranslateArgs(ast, tc, st, args, fuel).Success?
    ensures forall i :: 0 <= i < |args| ==>
      exists s :: Inv(s) && Grows(st, s) && TranslateNode(ast, tc, s, args[i], fuel).Success?
                  && TranslateNode(ast, tc, s, args[i], fuel).value.reg == TranslateArgs(ast, tc, st, args, fuel).value.regs[i]
    decreases |args|
  {
    if 0 < |args| {
      ArgumentsInOrder(ast, tc, st, args, fuel);
      var first := TranslateNode(ast, tc, st, args[0], fuel).value;
      var regs := TranslateArgs(ast, tc, st, args, fuel).value.regs;
      var rest := TranslateArgs(ast, tc, first.st, args[1..], fuel).value;
      ArgumentsLowered(ast, tc, first.st, args[1..], fuel);
      forall i | 0 <= i < |args|
        ensures exists s :: Inv(s) && Grows(st, s) && TranslateNode(ast, tc, s, args[i], fuel).Success?
                            && TranslateNode(ast, tc, s, args[i], fuel).value.reg == regs[i]
      {
        if i == 0 {
          assert Grows(st, st);
        } else {
          assert args[1..][i - 1] == args[i] && rest.regs[i - 1] == regs[i];
          var s :| Inv(s) && Grows(first.st, s) && TranslateNode(ast, tc, s, args[1..][i - 1], fuel).Success?
                   && TranslateNode(ast, tc, s, args[1..][i - 1], fuel).value.reg == rest.regs[i - 1];
          GrowsTransitive(st, first.st, s);
        }
      }
    }
  }

  /**
   * What a host call does to the machine, per host outcome. Arguments are read
   * in order, each register checked as it is read; a missing argument or an
   * argument register outside the file ends the call before the host runs.
   * Once the host has run, an i64 result is written into the call's target,
   * any other result leaves the registers as they were, and a host error is
   * the unwrap panic.
   */
  lemma HostCallOutcome(env: Env, m: Machine)
    requires m.pc < |m.code.instructions|
    requires m.code.instructions[m.pc].EXTERNALCALL?
    requires m.code.instructions[m.pc].head < |env.functions|
    requires m.code.instructions[m.pc].target < |m.code.registerValues|
    ensures
      var ins := m.code.instructions[m.pc];
      var values := m.code.registerValues;
      var f := env.functions[ins.head];
      && (|ins.args| == 0 ==> Step(env, m) == Failure(MissingArgument))
      && (1 <= |ins.args| && ins.args[0] >= |values| ==> Step(env, m) == Failure(RegisterOutOfRange(ins.args[0])))
      && (f.ExternalFn2? && |ins.args| == 1 && ins.args[0] < |values| ==> Step(env, m) == Failure(MissingArgument))
      && (f.ExternalFn2? && 2 <= |ins.args| && ins.args[0] < |values| && ins.args[1] >= |values| ==>
            Step(env, m) == Failure(RegisterOutOfRange(ins.args[1])))
    ensures
      var ins := m.code.instructions[m.pc];
      var values := m.code.registerValues;
      var f := env.functions[ins.head];
      var called := 1 <= |ins.args| && ins.args[0] < |values|
                    && (f.ExternalFn2? ==> 2 <= |ins.args| && ins.args[1] < |values|);
      var ret := if !called then HostError
                 else if f.ExternalFn1? then f.fun1(values[ins.args[0]])
                 else f.fun2(values[ins.args[0]], values[ins.args[1]]);
      called ==>
        && (ret.HostError? ==> Step(env, m) == Failure(HostFailed))
        && (ret.ReturnedOther? ==> Step(env, m) == Success(m.(pc := m.pc + 1)))
        && (ret.ReturnedI64? ==> Step(env, m) == Success(Advance(m, values[ins.target := ret.value])))
  {
  }
}

=== FILE: semantics.dfy ===
/**
 * What translated code computes. For expressions built from literals,
 * statements, arithmetic and comparison (no variables, branches, loops or
 * calls) a direct interpreter over the syntax tree gives the value an
 * expression has; the code `translate` emits for it, run by `eval`, ends
 * with that value in register 0 or stops with the same runtime fault.
 */
module Semantics {
  import opened Wrappers
  import opened Faults
  import opened Builder
  import opened Vm
  import opened Translator
  import opened Properties

  /** A value as a program sees it: the payload and the type tag it carries. */
  datatype Value = Value(payload: int, tag: TypeId)

  /** The relation a comparison kind names, on float bit patterns. */
  predicate FloatRelation(floats: FloatOps, kind: CompareKind, a: int, b: int) {
    match kind
    case Lt => floats.lt(a, b)
    case Lte => floats.lte(a, b)
    case Gt => floats.gt(a, b)
    case Gte => floats.gte(a, b)
  }

  /**
   * Applying an operator node to two values. The left operand's tag decides
   * between integer and float meaning; the right operand's tag is never
   * looked at, its payload is used as it is.
   */
  function Operate(floats: FloatOps, opNode: AstNode, op: NodeId, a: Value, b: Value): (r: Result<Value, Fault>)
    ensures !IsArithNode(opNode) && !IsCompareNode(opNode) ==> r == Failure(UnsupportedOperator(op))
    ensures (IsArithNode(opNode) || IsCompareNode(opNode)) && a.tag != I64_TYPE && a.tag != F64_TYPE ==>
      r == Failure(UnsupportedOperand(a.tag))
    ensures (IsArithNode(opNode) || IsCompareNode(opNode)) && a.tag == F64_TYPE ==> r.Success?
    ensures r.Success? && IsArithNode(opNode) ==> r.value.tag == a.tag
    ensures r.Success? && IsCompareNode(opNode) ==>
      r.value.tag == BOOL_TYPE && (r.value.payload == 0 || r.value.payload == 1)
    ensures r.Failure? && (IsArithNode(opNode) || IsCompareNode(opNode)) && (a.tag == I64_TYPE || a.tag == F64_TYPE) ==>
      r.error == Overflow || r.error == DivisionByZero
  {
    if IsArithNode(opNode) then
      var kind := ArithKindOf(opNode);
      if a.tag == I64_TYPE then
        var v :- IntArith(kind, a.payload, b.payload);
        Success(Value(v, I64_TYPE))
      else if a.tag == F64_TYPE then
        Success(Value(FloatArith(floats, kind, a.payload, b.payload), F64_TYPE))
      else
        Failure(UnsupportedOperand(a.tag))
    else if IsCompareNode(opNode) then
      var kind := CompareKindOf(opNode);
      if a.tag == I64_TYPE then
        Success(Value(BoolPayload(IntRelation(kind, a.payload, b.payload)), BOOL_TYPE))
      else if a.tag == F64_TYPE then
        Success(Value(BoolPayload(FloatRelation(floats, kind, a.payload, b.payload)), BOOL_TYPE))
      else
        Failure(UnsupportedOperand(a.tag))
    else
      Failure(UnsupportedOperator(op))
  }

  /**
   * The expressions this module speaks about: literals, statements around an
   * expression, and binary arithmetic or comparison, nested no deeper than
   * `fuel` allows.
   */
  predicate Pure(ast: seq<AstNode>, node: NodeId, fuel: nat)
    decreases fuel
  {
    && 0 < fuel
    && node < |ast|
    && match ast[node]
       case Int(_) => true
       case Float(_) => true
       case True => true
       case False => true
       case Statement(inner) => Pure(ast, inner, fuel - 1)
       case BinaryOp(lhs, op, rhs) =>
         && op < |ast|
         && (IsArithNode(ast[op]) || IsCompareNode(ast[op]))
         && Pure(ast, lhs, fuel - 1)
         && Pure(ast, rhs, fuel - 1)
       case _ => false
  }

  /**
   * The value of an expression, computed directly on the tree: left operand
   * first, then right operand, then the operator. Faults are the ones the
   * program would raise.
   */
  function Denote(floats: FloatOps, ast: seq<AstNode>, node: NodeId, fuel: nat): (r: Result<Value, Fault>)
    decreases fuel, 1
    ensures r.Success? ==> r.value.tag == I64_TYPE || r.value.tag == F64_TYPE || r.value.tag == BOOL_TYPE
    ensures r.Success? && r.value.tag == BOOL_TYPE ==> r.value.payload == 0 || r.value.payload == 1
    ensures r.Success? && r.value.tag == I64_TYPE ==> IsI64(r.value.payload)
  {
    if fuel == 0 then
      Failure(OutOfFuel)
    else if node >= |ast| then
      Failure(NodeOutOfRange(node))
    else
      match ast[node]
      case Int(v) => if IsI64(v) then Success(Value(v, I64_TYPE)) else Failure(MalformedLiteral(node))
      case Float(bits) => Success(Value(bits, F64_TYPE))
      case True => Success(Value(1, BOOL_TYPE))
      case False => Success(Value(0, BOOL_TYPE))
      case Statement(inner) => Denote(floats, ast, inner, fuel - 1)
      case BinaryOp(lhs, op, rhs) => DenoteBinop(floats, ast, lhs, op, rhs, fuel - 1)
      case _ => Failure(UnsupportedNode(node))
  }

  function DenoteBinop(floats: FloatOps, ast: seq<AstNode>, lhs: NodeId, op: NodeId, rhs: NodeId, fuel: nat)
    : (r: Result<Value, Fault>)
    decreases fuel, 2
    ensures r.Success? ==> r.value.tag == I64_TYPE || r.value.tag == F64_TYPE || r.value.tag == BOOL_TYPE
    ensures r.Success? && r.value.tag == BOOL_TYPE ==> r.value.payload == 0 || r.value.payload == 1
    ensures r.Success? && r.value.tag == I64_TYPE ==> IsI64(r.value.payload)
  {
    var a :- Denote(floats, ast, lhs, fuel);
    var b :- Denote(floats, ast, rhs, fuel);
    if op >= |ast| then Failure(NodeOutOfRange(op)) else Operate(floats, ast[op], op, a, b)
  }

  /** The opcode the builder emits for an operator node, given the left operand's float-ness. */
  function OpcodeOf(opNode: AstNode, isFloat: bool): Opcode
    requires IsArithNode(opNode) || IsCompareNode(opNode)
  {
    if IsArithNode(opNode) then ArithOpcode(ArithKindOf(opNode), isFloat)
    else CompareOpcode(CompareKindOf(opNode), isFloat)
  }

  /** The direct meaning of an operator and the opcode chosen for it agree, faults included. */
  lemma OperateMatchesOpcode(floats: FloatOps, opNode: AstNode, op: NodeId, a: Value, b: Value)
    requires IsArithNode(opNode) || IsCompareNode(opNode)
    requires a.tag == I64_TYPE || a.tag == F64_TYPE
    ensures
      var applied := ApplyOpcode(floats, OpcodeOf(opNode, a.tag == F64_TYPE), a.payload, b.payload);
      var tag := if IsCompareNode(opNode) then BOOL_TYPE else a.tag;
      && (applied.Success? ==> Operate(floats, opNode, op, a, b) == Success(Value(applied.value, tag)))
      && (applied.Failure? ==> Operate(floats, opNode, op, a, b) == Failure(applied.error))
  {
    OpcodeSelectionMeaning(floats, a.payload, b.payload);
  }

  /** Exactly `n` steps of the loop in `eval`, or fewer if the program counter leaves the code. */
  function Steps(env: Env, m: Machine, n: nat): (r: Result<Machine, Fault>)
    decreases n, 1
    ensures r.Success? ==> r.value.code.instructions == m.code.instructions
    ensures r.Success? ==> r.value.code.registerTypes == m.code.registerTypes
    ensures r.Success? ==> |r.value.code.registerValues| == |m.code.registerValues|
  {
    if n == 0 || m.pc >= |m.code.instructions| then Success(m) else StepThenSteps(env, m, n)
  }

  /**
   * One step, then the remaining `n - 1`. Kept apart from `Steps` so that a
   * stretch of steps is unfolded one instruction at a time, only where a
   * proof asks for it.
   */
  function StepThenSteps(env: Env, m: Machine, n: nat): (r: Result<Machine, Fault>)
    requires 0 < n && m.pc < |m.code.instructions|
    decreases n, 0
    ensures r.Success? ==> r.value.code.instructions == m.code.instructions
    ensures r.Success? ==> r.value.code.registerTypes == m.code.registerTypes
    ensures r.Success? ==> |r.value.code.registerValues| == |m.code.registerValues|
  {
    var m' :- Step(env, m);
    Steps(env, m', n - 1)
  }

  lemma {:induction false} StepsThen(env: Env, m: Machine, a: nat, b: nat)
    ensures
      var first := Steps(env, m, a);
      && (first.Success? ==> Steps(env, m, a + b) == Steps(env, first.value, b))
      && (first.Failure? ==> Steps(env, m, a + b) == first)
    decreases a
  {
    if a != 0 && m.pc < |m.code.instructions| {
      var next := Step(env, m);
      if next.Success? {
        StepsThen(env, next.value, a - 1, b);
      }
    }
  }

  /** The loop of `eval` given `k` more fuel passes through whatever `k` steps reach. */
  lemma {:induction false} RunAfterSteps(env: Env, m: Machine, k: nat, fuel: nat)
    ensures Steps(env, m, k).Success? ==> Run(env, m, fuel + k) == Run(env, Steps(env, m, k).value, fuel)
    ensures Steps(env, m, k).Failure? ==> Run(env, m, fuel + k) == Steps(env, m, k)
    decreases k
  {
    if k != 0 && m.pc < |m.code.instructions| {
      var next := Step(env, m);
      if next.Success? {
        RunAfterSteps(env, next.value, k - 1, fuel);
      }
    }
  }

  /** One step over an arithmetic or comparison instruction whose registers exist. */
  lemma BinaryStep(env: Env, m: Machine)
    requires m.pc < |m.code.instructions| && m.code.instructions[m.pc].Binary?
    requires
      var ins := m.code.instructions[m.pc];
      ins.lhs < |m.code.registerValues| && ins.rhs < |m.code.registerValues| && ins.target < |m.code.registerValues|
    ensures
      var ins := m.code.instructions[m.pc];
      var values := m.code.registerValues;
      var applied := ApplyOpcode(env.floats, ins.op, values[ins.lhs], values[ins.rhs]);
      && (applied.Success? ==> Steps(env, m, 1) == Success(Advance(m, values[ins.target := applied.value])))
      && (applied.Failure? ==> Steps(env, m, 1) == Failure(applied.error))
  {
  }

  /**
   * `m` is about to run the code translation appended to `before` to reach
   * `after`: the program holds that code, the program counter is at its first
   * instruction, and the registers the translation created still hold the
   * values they were created with.
   */
  ghost predicate Poised(before: Codegen, after: Codegen, m: Machine) {
    && |after.instructions| <= |m.code.instructions|
    && (forall i :: 0 <= i < |after.instructions| ==> m.code.instructions[i] == after.instructions[i])
    && m.pc == |before.instructions|
    && |after.registerValues| <= |m.code.registerValues|
    && forall i :: |before.registerValues| <= i < |after.registerValues| ==>
         m.code.registerValues[i] == after.registerValues[i]
  }

  /**
   * `m'` is `m` after that code ran to its end: the program counter is just
   * past it and only registers the translation created have changed.
   */
  ghost predicate Finished(before: Codegen, after: Codegen, m: Machine, m': Machine) {
    && m'.pc == |after.instructions|
    && m'.code.instructions == m.code.instructions
    && m'.code.registerTypes == m.code.registerTypes
    && |m'.code.registerValues| == |m.code.registerValues|
    && forall i :: 0 <= i < |m.code.registerValues| && !(|before.registerValues| <= i < |after.registerValues|) ==>
         m'.code.registerValues[i] == m.code.registerValues[i]
  }

  /**
   * The code translation appended to `before` computes `d` from `m`: if `d` is
   * a value, running that code leaves it in the result register, which has
   * the value's tag; if `d` is a fault, running that code raises it.
   */
  ghost predicate Computes(env: Env, before: Codegen, l: Lowered, d: Result<Value, Fault>, m: Machine) {
    && |before.instructions| <= |l.st.cg.instructions|
    && |before.registerValues| <= l.reg < |l.st.cg.registerValues|
    && l.reg < |l.st.cg.registerTypes|
    && l.reg < |m.code.registerValues|
    && var run := Steps(env, m, |l.st.cg.instructions| - |before.instructions|);
    && (d.Success? ==>
          && run.Success?
          && Finished(before, l.st.cg, m, run.value)
          && run.value.code.registerValues[l.reg] == d.value.payload
          && l.st.cg.registerTypes[l.reg] == d.value.tag)
    && (d.Failure? ==> run == Failure(d.error))
  }

  /**
   * Translation is correct on pure expressions: the code emitted for one
   * computes its value into a register of its own, and raises its fault if
   * it has one.
   */
  lemma {:induction false} PureCorrect(env: Env, ast: seq<AstNode>, tc: TypeChecker, st: TState,
                                       node: NodeId, fuel: nat, l: Lowered, d: Result<Value, Fault>, m: Machine)
    requires Inv(st) && Pure(ast, node, fuel)
    requires TranslateNode(ast, tc, st, node, fuel) == Success(l)
    requires Denote(env.floats, ast, node, fuel) == d
    requires Poised(st.cg, l.st.cg, m)
    ensures Computes(env, st.cg, l, d, m)
    decreases fuel, 1
  {
    match ast[node]
    case Statement(_) => StatementCorrect(env, ast, tc, st, node, fuel, l, d, m);
    case BinaryOp(_, _, _) => BinaryOpCorrect(env, ast, tc, st, node, fuel, l, d, m);
    case _ => LiteralNodeCorrect(env, ast, tc, st, node, fuel, l, d, m);
  }

  /** A statement wrapper computes what its inner expression computes. */
  lemma {:induction false} StatementCorrect(env: Env, ast: seq<AstNode>, tc: TypeChecker, st: TState,
                                            node: NodeId, fuel: nat, l: Lowered, d: Result<Value, Fault>, m: Machine)
    requires node < |ast| && ast[node].Statement?
    requires Inv(st) && Pure(ast, node, fuel)
    requires TranslateNode(ast, tc, st, node, fuel) == Success(l)
    requires Denote(env.floats, ast, node, fuel) == d
    requires Poised(st.cg, l.st.cg, m)
    ensures Computes(env, st.cg, l, d, m)
    decreases fuel, 0
  {
    PureCorrect(env, ast, tc, st, ast[node].inner, fuel - 1, l, d, m);
  }

  lemma {:induction false} BinaryOpCorrect(env: Env, ast: seq<AstNode>, tc: TypeChecker, st: TState,
                                           node: NodeId, fuel: nat, l: Lowered, d: Result<Value, Fault>, m: Machine)
    requires node < |ast| && ast[node].BinaryOp?
    requires Inv(st) && Pure(ast, node, fuel)
    requires TranslateNode(ast, tc, st, node, fuel) == Success(l)
    requires Denote(env.floats, ast, node, fuel) == d
    requires Poised(st.cg, l.st.cg, m)
    ensures Computes(env, st.cg, l, d, m)
    decreases fuel, 0
  {
    PureBinopCorrect(env, ast, tc, st, ast[node].lhs, ast[node].op, ast[node].rhs, fuel - 1, l, d, m);
  }

  /** A literal emits no code, so its register already holds the value it denotes. */
  lemma LiteralNodeCorrect(env: Env, ast: seq<AstNode>, tc: TypeChecker, st: TState,
                           node: NodeId, fuel: nat, l: Lowered, d: Result<Value, Fault>, m: Machine)
    requires node < |ast| && (ast[node].Int? || ast[node].Float? || ast[node].True? || ast[node].False?)
    requires Inv(st) && Pure(ast, node, fuel)
    requires TranslateNode(ast, tc, st, node, fuel) == Success(l)
    requires Denote(env.floats, ast, node, fuel) == d
    requires Poised(st.cg, l.st.cg, m)
    ensures Computes(env, st.cg, l, d, m)
  {
    var v := LiteralTranslation(env.floats, ast, tc, st, node, fuel);
    LiteralCorrect(env, st.cg, l, v, m);
  }

  /** The value a literal node denotes and the register translation creates for it agree. */
  lemma LiteralTranslation(floats: FloatOps, ast: seq<AstNode>, tc: TypeChecker, st: TState, node: NodeId, fuel: nat)
    returns (v: Value)
    requires Inv(st) && 0 < fuel && node < |ast|
    requires ast[node].Int? || ast[node].Float? || ast[node].True? || ast[node].False?
    requires TranslateNode(ast, tc, st, node, fuel).Success?
    ensures Denote(floats, ast, node, fuel) == Success(v)
    ensures
      var l := TranslateNode(ast, tc, st, node, fuel).value;
      && l.st.cg.instructions == st.cg.instructions
      && l.reg == |st.cg.registerValues| && l.reg < |l.st.cg.registerValues| && l.reg < |l.st.cg.registerTypes|
      && l.st.cg.registerValues[l.reg] == v.payload && l.st.cg.registerTypes[l.reg] == v.tag
  {
    var l := TranslateNode(ast, tc, st, node, fuel).value;
    match ast[node]
    case Int(n) =>
      assert l == Lift(st, I64Const(st.cg, n));
      v := Value(n, I64_TYPE);
    case Float(bits) =>
      assert l == Lift(st, F64Const(st.cg, bits));
      v := Value(bits, F64_TYPE);
    case True =>
      assert l == Lift(st, BoolConst(st.cg, true));
      v := Value(1, BOOL_TYPE);
    case False =>
      assert l == Lift(st, BoolConst(st.cg, false));
      v := Value(0, BOOL_TYPE);
  }

  /** A literal emits no code: its value already sits in the register created for it. */
  lemma LiteralCorrect(env: Env, before: Codegen, l: Lowered, v: Value, m: Machine)
    requires l.st.cg.instructions == before.instructions
    requires l.reg == |before.registerValues| && l.reg < |l.st.cg.registerValues| && l.reg < |l.st.cg.registerTypes|
    requires l.st.cg.registerValues[l.reg] == v.payload && l.st.cg.registerTypes[l.reg] == v.tag
    requires Poised(before, l.st.cg, m)
    ensures Computes(env, before, l, Success(v), m)
  {
    assert Steps(env, m, 0) == Success(m);
  }

  lemma {:induction false} PureBinopCorrect(env: Env, ast: seq<AstNode>, tc: TypeChecker, st: TState,
                                            lhs: NodeId, op: NodeId, rhs: NodeId, fuel: nat,
                                            l: Lowered, d: Result<Value, Fault>, m: Machine)
    requires Inv(st)
    requires op < |ast| && (IsArithNode(ast[op]) || IsCompareNode(ast[op]))
    requires Pure(ast, lhs, fuel) && Pure(ast, rhs, fuel)
    requires TranslateBinop(ast, tc, st, lhs, op, rhs, fuel) == Success(l)
    requires DenoteBinop(env.floats, ast, lhs, op, rhs, fuel) == d
    requires Poised(st.cg, l.st.cg, m)
    ensures Computes(env, st.cg, l, d, m)
    decreases fuel, 2
  {
    var L := TranslateNode(ast, tc, st, lhs, fuel).value;
    var R := TranslateNode(ast, tc, L.st, rhs, fuel).value;
    BinopShape(ast, tc, st, lhs, op, rhs, fuel);
    var left := Denote(env.floats, ast, lhs, fuel);
    var right := Denote(env.floats, ast, rhs, fuel);

    // The left operand's code runs first, then the right operand's from wherever it left off.
    PoisedBefore(st.cg, L.st.cg, l.st.cg, m);
    PureCorrect(env, ast, tc, st, lhs, fuel, L, left, m);
    forall m1: Machine | Poised(L.st.cg, R.st.cg, m1)
      ensures Computes(env, L.st.cg, R, right, m1)
    {
      PureCorrect(env, ast, tc, L.st, rhs, fuel, R, right, m1);
    }
    DenoteBinopCombines(env.floats, ast, lhs, op, rhs, fuel);
    ComposeBinary(env, st.cg, L, R, l, ast[op], op, left, right, d, m);
  }

  /** Operate on two outcomes, the left one's fault first. */
  function Combine(floats: FloatOps, opNode: AstNode, op: NodeId, left: Result<Value, Fault>, right: Result<Value, Fault>)
    : Result<Value, Fault>
  {
    var a :- left;
    var b :- right;
    Operate(floats, opNode, op, a, b)
  }

  lemma DenoteBinopCombines(floats: FloatOps, ast: seq<AstNode>, lhs: NodeId, op: NodeId, rhs: NodeId, fuel: nat)
    requires op < |ast|
    ensures DenoteBinop(floats, ast, lhs, op, rhs, fuel)
            == Combine(floats, ast[op], op, Denote(floats, ast, lhs, fuel), Denote(floats, ast, rhs, fuel))
  {
  }

  /**
   * The layout of a translated binary operation: the left operand's code
   * `L`, the right operand's code `R`, then one instruction applying the
   * opcode chosen by the left operand's tag into a register created for it.
   */
  ghost predicate BinopLayout(before: Codegen, L: Lowered, R: Lowered, l: Lowered, opNode: AstNode)
    requires IsArithNode(opNode) || IsCompareNode(opNode)
  {
    && Extends(before, L.st.cg) && Extends(L.st.cg, R.st.cg) && Extends(R.st.cg, l.st.cg)
    && L.reg < |R.st.cg.registerTypes| && R.reg < |R.st.cg.registerValues|
    && var tag := R.st.cg.registerTypes[L.reg];
    && (tag == I64_TYPE || tag == F64_TYPE)
    && l.reg == |R.st.cg.registerValues|
    && |l.st.cg.registerValues| == l.reg + 1
    && |l.st.cg.registerTypes| == l.reg + 1
    && |l.st.cg.instructions| == |R.st.cg.instructions| + 1
    && l.st.cg.instructions[|R.st.cg.instructions|] == Binary(OpcodeOf(opNode, tag == F64_TYPE), L.reg, R.reg, l.reg)
    && l.st.cg.registerTypes[l.reg] == (if IsCompareNode(opNode) then BOOL_TYPE else tag)
  }

  /** The code of a binary operation is laid out as `BinopLayout` says. */
  lemma BinopShape(ast: seq<AstNode>, tc: TypeChecker, st: TState, lhs: NodeId, op: NodeId, rhs: NodeId, fuel: nat)
    requires Inv(st)
    requires op < |ast| && (IsArithNode(ast[op]) || IsCompareNode(ast[op]))
    requires TranslateBinop(ast, tc, st, lhs, op, rhs, fuel).Success?
    ensures
      var L := TranslateNode(ast, tc, st, lhs, fuel).value;
      BinopLayout(st.cg, L, TranslateNode(ast, tc, L.st, rhs, fuel).value,
                  TranslateBinop(ast, tc, st, lhs, op, rhs, fuel).value, ast[op])
  {
    var L := TranslateNode(ast, tc, st, lhs, fuel).value;
    var R := TranslateNode(ast, tc, L.st, rhs, fuel).value;
    var emitted := EmitOperator(R.st.cg, ast[op], op, L.reg, R.reg);
    assert TranslateBinop(ast, tc, st, lhs, op, rhs, fuel).value == Lowered(R.st.(cg := emitted.value.cg), emitted.value.reg);
  }

  /**
   * If the operands' code computes their outcomes, the whole binary
   * operation's code computes the operator applied to them.
   */
  lemma ComposeBinary(env: Env, before: Codegen, L: Lowered, R: Lowered, l: Lowered,
                      opNode: AstNode, op: NodeId, left: Result<Value, Fault>, right: Result<Value, Fault>,
                      d: Result<Value, Fault>, m: Machine)
    requires IsArithNode(opNode) || IsCompareNode(opNode)
    requires BinopLayout(before, L, R, l, opNode)
    requires Poised(before, l.st.cg, m)
    requires Computes(env, before, L, left, m)
    requires forall m1: Machine :: Poised(L.st.cg, R.st.cg, m1) ==> Computes(env, L.st.cg, R, right, m1)
    requires d == Combine(env.floats, opNode, op, left, right)
    ensures Computes(env, before, l, d, m)
  {
    if left.Success? {
      ComposeAfterLeft(env, before, L, R, l, opNode, op, left.value, right, d, m);
    } else {
      StepsThen(env, m, |L.st.cg.instructions| - |before.instructions|, |R.st.cg.instructions| - |L.st.cg.instructions| + 1);
    }
  }

  lemma ComposeAfterLeft(env: Env, before: Codegen, L: Lowered, R: Lowered, l: Lowered,
                         opNode: AstNode, op: NodeId, a: Value, right: Result<Value, Fault>,
                         d: Result<Value, Fault>, m: Machine)
    requires IsArithNode(opNode) || IsCompareNode(opNode)
    requires BinopLayout(before, L, R, l, opNode)
    requires Poised(before, l.st.cg, m)
    requires Computes(env, before, L, Success(a), m)
    requires forall m1: Machine :: Poised(L.st.cg, R.st.cg, m1) ==> Computes(env, L.st.cg, R, right, m1)
    requires d == Combine(env.floats, opNode, op, Success(a), right)
    ensures Computes(env, before, l, d, m)
  {
    var m1 := LeftThenRight(env, before, L, R, l, a, right, m);
    ComposeAfterRight(env, before, L, R, l, opNode, op, a, right, d, m, m1);
  }

  /** Once the right operand's code has run from `m1`, its outcome and the operator's decide the whole. */
  lemma ComposeAfterRight(env: Env, before: Codegen, L: Lowered, R: Lowered, l: Lowered,
                          opNode: AstNode, op: NodeId, a: Value, right: Result<Value, Fault>,
                          d: Result<Value, Fault>, m: Machine, m1: Machine)
    requires IsArithNode(opNode) || IsCompareNode(opNode)
    requires BinopLayout(before, L, R, l, opNode)
    requires Poised(before, l.st.cg, m)
    requires Computes(env, before, L, Success(a), m)
    requires Steps(env, m, |L.st.cg.instructions| - |before.instructions|) == Success(m1)
    requires Computes(env, L.st.cg, R, right, m1)
    requires Steps(env, m, |l.st.cg.instructions| - |before.instructions|)
             == Steps(env, m1, |R.st.cg.instructions| - |L.st.cg.instructions| + 1)
    requires right.Failure? ==> d == Failure(right.error)
    requires right.Success? ==> d == Operate(env.floats, opNode, op, a, right.value)
    ensures Computes(env, before, l, d, m)
  {
    if right.Success? {
      StepsThen(env, m1, |R.st.cg.instructions| - |L.st.cg.instructions|, 1);
      ComposeBothComputed(env, before, L, R, l, opNode, op, a, right.value, m, m1);
    } else {
      RightFaultPropagates(env, before, L, R, l, right.error, m, m1);
    }
  }

  /** A fault in the right operand's code is the outcome of the whole operation. */
  lemma RightFaultPropagates(env: Env, before: Codegen, L: Lowered, R: Lowered, l: Lowered,
                             e: Fault, m: Machine, m1: Machine)
    requires |before.instructions| <= |L.st.cg.instructions| <= |R.st.cg.instructions|
    requires |l.st.cg.instructions| == |R.st.cg.instructions| + 1
    requires |before.registerValues| <= l.reg < |l.st.cg.registerValues|
    requires l.reg < |l.st.cg.registerTypes| && l.reg < |m.code.registerValues|
    requires Computes(env, L.st.cg, R, Failure(e), m1)
    requires Steps(env, m, |l.st.cg.instructions| - |before.instructions|)
             == Steps(env, m1, |R.st.cg.instructions| - |L.st.cg.instructions| + 1)
    ensures Computes(env, before, l, Failure(e), m)
  {
    StepsThen(env, m1, |R.st.cg.instructions| - |L.st.cg.instructions|, 1);
  }

  /** Where the left operand's code stops, the right operand's code starts and computes its outcome. */
  lemma LeftThenRight(env: Env, before: Codegen, L: Lowered, R: Lowered, l: Lowered,
                      a: Value, right: Result<Value, Fault>, m: Machine)
    returns (m1: Machine)
    requires Extends(before, L.st.cg) && Extends(L.st.cg, R.st.cg) && Extends(R.st.cg, l.st.cg)
    requires |l.st.cg.instructions| == |R.st.cg.instructions| + 1
    requires Poised(before, l.st.cg, m)
    requires Computes(env, before, L, Success(a), m)
    requires forall m1: Machine :: Poised(L.st.cg, R.st.cg, m1) ==> Computes(env, L.st.cg, R, right, m1)
    ensures Steps(env, m, |L.st.cg.instructions| - |before.instructions|) == Success(m1)
    ensures Computes(env, L.st.cg, R, right, m1)
    ensures Steps(env, m, |l.st.cg.instructions| - |before.instructions|)
            == Steps(env, m1, |R.st.cg.instructions| - |L.st.cg.instructions| + 1)
  {
    var k1 := |L.st.cg.instructions| - |before.instructions|;
    StepsThen(env, m, k1, |R.st.cg.instructions| - |L.st.cg.instructions| + 1);
    m1 := Steps(env, m, k1).value;
    PoisedAfter(before, L.st.cg, R.st.cg, l.st.cg, m, m1);
  }

  /**
   * With both operands computed, the one instruction the operator emitted
   * finishes the job: it stores the operator's result or raises its fault.
   */
  lemma ComposeBothComputed(env: Env, before: Codegen, L: Lowered, R: Lowered, l: Lowered,
                            opNode: AstNode, op: NodeId, a: Value, b: Value, m: Machine, m1: Machine)
    requires IsArithNode(opNode) || IsCompareNode(opNode)
    requires BinopLayout(before, L, R, l, opNode)
    requires Poised(before, l.st.cg, m)
    requires Computes(env, before, L, Success(a), m)
    requires Steps(env, m, |L.st.cg.instructions| - |before.instructions|) == Success(m1)
    requires Computes(env, L.st.cg, R, Success(b), m1)
    ensures
      var m2 := Steps(env, m1, |R.st.cg.instructions| - |L.st.cg.instructions|).value;
      var d := Operate(env.floats, opNode, op, a, b);
      && (d.Success? ==>
            && Steps(env, m2, 1).Success?
            && Finished(before, l.st.cg, m, Steps(env, m2, 1).value)
            && Steps(env, m2, 1).value.code.registerValues[l.reg] == d.value.payload
            && l.st.cg.registerTypes[l.reg] == d.value.tag)
      && (d.Failure? ==> Steps(env, m2, 1) == Failure(d.error))
  {
    var m2 := OperandsInPlace(env, before, L, R, l, opNode, a, b, m, m1);
    OperatorStep(env, before, L, R, l, opNode, op, a, b, m, m1, m2);
  }

  /** After both operands' code, the machine sits at the operator's instruction with both values in place. */
  lemma OperandsInPlace(env: Env, before: Codegen, L: Lowered, R: Lowered, l: Lowered,
                        opNode: AstNode, a: Value, b: Value, m: Machine, m1: Machine)
    returns (m2: Machine)
    requires IsArithNode(opNode) || IsCompareNode(opNode)
    requires BinopLayout(before, L, R, l, opNode)
    requires Poised(before, l.st.cg, m)
    requires Computes(env, before, L, Success(a), m)
    requires Steps(env, m, |L.st.cg.instructions| - |before.instructions|) == Success(m1)
    requires Computes(env, L.st.cg, R, Success(b), m1)
    ensures Steps(env, m1, |R.st.cg.instructions| - |L.st.cg.instructions|) == Success(m2)
    ensures Finished(before, L.st.cg, m, m1) && Finished(L.st.cg, R.st.cg, m1, m2)
    ensures m2.pc == |R.st.cg.instructions| < |m2.code.instructions|
    ensures m2.code.instructions[m2.pc] == l.st.cg.instructions[|R.st.cg.instructions|]
    ensures l.reg < |m2.code.registerValues|
    ensures m2.code.registerValues[L.reg] == a.payload && m2.code.registerValues[R.reg] == b.payload
  {
    m2 := Steps(env, m1, |R.st.cg.instructions| - |L.st.cg.instructions|).value;
  }

  /** The operator's one instruction stores the operator's result, or raises its fault. */
  lemma OperatorStep(env: Env, before: Codegen, L: Lowered, R: Lowered, l: Lowered,
                     opNode: AstNode, op: NodeId, a: Value, b: Value, m: Machine, m1: Machine, m2: Machine)
    requires IsArithNode(opNode) || IsCompareNode(opNode)
    requires BinopLayout(before, L, R, l, opNode)
    requires R.st.cg.registerTypes[L.reg] == a.tag
    requires Finished(before, L.st.cg, m, m1) && Finished(L.st.cg, R.st.cg, m1, m2)
    requires m2.pc == |R.st.cg.instructions| < |m2.code.instructions|
    requires m2.code.instructions[m2.pc] == l.st.cg.instructions[|R.st.cg.instructions|]
    requires l.reg < |m2.code.registerValues|
    requires m2.code.registerValues[L.reg] == a.payload && m2.code.registerValues[R.reg] == b.payload
    ensures
      var d := Operate(env.floats, opNode, op, a, b);
      && (d.Success? ==>
            && Steps(env, m2, 1).Success?
            && Finished(before, l.st.cg, m, Steps(env, m2, 1).value)
            && Steps(env, m2, 1).value.code.registerValues[l.reg] == d.value.payload
            && l.st.cg.registerTypes[l.reg] == d.value.tag)
      && (d.Failure? ==> Steps(env, m2, 1) == Failure(d.error))
  {
    OperateMatchesOpcode(env.floats, opNode, op, a, b);
    BinaryStep(env, m2);
    FinishedThrough(before, L.st.cg, R.st.cg, l.st.cg, m, m1, m2);
  }

  /** Poised for a whole translation is poised for the first part of it. */
  lemma PoisedBefore(before: Codegen, mid: Codegen, after: Codegen, m: Machine)
    requires Extends(before, mid) && Extends(mid, after)
    requires Poised(before, after, m)
    ensures Poised(before, mid, m)
  {
  }

  /** After the left operand's code the machine is poised for the right operand's. */
  lemma PoisedAfter(before: Codegen, mid: Codegen, later: Codegen, after: Codegen, m: Machine, m1: Machine)
    requires Extends(before, mid) && Extends(mid, later) && Extends(later, after)
    requires Poised(before, after, m)
    requires Finished(before, mid, m, m1)
    ensures Poised(mid, later, m1)
  {
  }

  /**
   * Two finished stretches of code followed by one step that writes only the
   * last register created make one finished stretch.
   */
  lemma FinishedThrough(before: Codegen, mid: Codegen, later: Codegen, after: Codegen,
                        m: Machine, m1: Machine, m2: Machine)
    requires Extends(before, mid) && Extends(mid, later) && Extends(later, after)
    requires |after.registerValues| == |later.registerValues| + 1
    requires |after.instructions| == |later.instructions| + 1
    requires Finished(before, mid, m, m1) && Finished(mid, later, m1, m2)
    ensures forall m3: Machine ::
      && m3.pc == |after.instructions|
      && m3.code.instructions == m2.code.instructions
      && m3.code.registerTypes == m2.code.registerTypes
      && |m3.code.registerValues| == |m2.code.registerValues|
      && (forall i :: 0 <= i < |m2.code.registerValues| && i != |later.registerValues| ==>
            m3.code.registerValues[i] == m2.code.registerValues[i])
      ==> Finished(before, after, m, m3)
  {
  }

  /**
   * A pure expression, translated and evaluated: `eval` yields the
   * expression's payload, paired with whatever tag register 0 was created
   * with, or stops with the expression's fault.
   */
  lemma CompiledExpressionEvaluates(env: Env, ast: seq<AstNode>, tc: TypeChecker, fuel: nat, evalFuel: nat)
    requires 0 < |ast| && Pure(ast, |ast| - 1, fuel)
    requires Translate(ast, tc, fuel).Success?
    requires |Translate(ast, tc, fuel).value.instructions| <= evalFuel
    ensures
      var cg := Translate(ast, tc, fuel).value;
      var d := Denote(env.floats, ast, |ast| - 1, fuel);
      && (d.Success? ==> Eval(env, cg, evalFuel) == Success((d.value.payload, cg.registerTypes[0])))
      && (d.Failure? ==> Eval(env, cg, evalFuel) == Failure(d.error))
  {
    var cg := Translate(ast, tc, fuel).value;
    var st0 := TState(EmptyCodegen, map[]);
    var root := TranslateNode(ast, tc, st0, |ast| - 1, fuel).value;
    var d := Denote(env.floats, ast, |ast| - 1, fuel);
    assert Poised(EmptyCodegen, root.st.cg, Machine(cg, 0));
    PureCorrect(env, ast, tc, st0, |ast| - 1, fuel, root, d, Machine(cg, 0));
    EvalComputed(env, root, cg, d, evalFuel);
  }

  /**
   * When the code before the final `mov` computes `d`, evaluating the whole
   * program yields `d`'s payload or its fault.
   */
  lemma EvalComputed(env: Env, root: Lowered, cg: Codegen, d: Result<Value, Fault>, evalFuel: nat)
    requires Computes(env, EmptyCodegen, root, d, Machine(cg, 0))
    requires cg.registerValues == root.st.cg.registerValues && cg.registerTypes == root.st.cg.registerTypes
    requires root.reg == 0 ==> cg.instructions == root.st.cg.instructions
    requires root.reg != 0 ==> cg.instructions == root.st.cg.instructions + [MOV(0, root.reg)]
    requires |cg.instructions| <= evalFuel
    ensures d.Success? ==> Eval(env, cg, evalFuel) == Success((d.value.payload, cg.registerTypes[0]))
    ensures d.Failure? ==> Eval(env, cg, evalFuel) == Failure(d.error)
  {
    var m := Machine(cg, 0);
    var k := |root.st.cg.instructions|;
    RunAfterSteps(env, m, k, evalFuel - k);
    if d.Success? {
      FinalMoveRuns(env, Steps(env, m, k).value, root.reg, evalFuel - k);
    }
  }

  /**
   * The final `mov` into register 0, or its absence when the result already
   * sits there, leaves the result in register 0 when the run stops.
   */
  lemma FinalMoveRuns(env: Env, m: Machine, reg: RegisterId, fuel: nat)
    requires reg < |m.code.registerValues|
    requires reg == 0 ==> m.pc == |m.code.instructions|
    requires reg != 0 ==> m.pc + 1 == |m.code.instructions| && m.code.instructions[m.pc] == MOV(0, reg) && 1 <= fuel
    ensures Run(env, m, fuel).Success?
    ensures Run(env, m, fuel).value.code.registerValues[0] == m.code.registerValues[reg]
  {
    if reg != 0 {
      var m' := Step(env, m).value;
      assert m'.code.registerValues[0] == m.code.registerValues[reg];
      assert Run(env, m, fuel) == Run(env, m', fuel - 1);
    }
  }
}

=== FILE: translator.dfy ===
/**
 * `Translater` in src/codegen.rs: a single pass over the annotated syntax
 * tree that lowers each node into registers and instructions of a builder,
 * aliases variables to the register of their initializer through
 * `var_lookup`, and lowers `if` and `while` by reserving a branch and patching
 * it once the positions of its targets are known.
 *
 * The syntax tree arrives as a sequence of nodes addressed by index, with the
 * type checker's tables beside it. Nothing stops a table from pointing back at
 * an ancestor, so the recursion is bounded by `fuel`, the depth of nesting the
 * model is willing to follow; running out of it stands for the stack overflow
 * such a tree would cause.
 */
module Translator {
  import opened Wrappers
  import opened Faults
  import opened Builder

  type NodeId = nat

  /**
   * The syntax-node kinds the translator looks at. Literals carry their value
   * already parsed (a float as the i64 with the same bits); `Other` stands for
   * every node kind the translator refuses.
   */
  datatype AstNode =
    | Int(value: int)
    | Float(bits: int)
    | BinaryOp(lhs: NodeId, op: NodeId, rhs: NodeId)
    | Block(nodes: seq<NodeId>)
    | True
    | False
    | Let(variableName: NodeId, initializer: NodeId)
    | Variable
    | Statement(inner: NodeId)
    | If(condition: NodeId, thenBlock: NodeId, elseExpression: Option<NodeId>)
    | While(condition: NodeId, block: NodeId)
    | Call(head: NodeId, args: seq<NodeId>)
    | Plus | Minus | Multiply | Divide
    | LessThan | LessThanOrEqual | GreaterThan | GreaterThanOrEqual
    | Assignment
    | Other

  /** The type checker's tables: a type per node, variable definition sites, call targets. */
  datatype TypeChecker = TypeChecker(
    nodeTypes: seq<TypeId>,
    variableDef: map<NodeId, NodeId>,
    callResolution: map<NodeId, FunctionId>)

  /** The translator's state: the builder and `var_lookup`, defining node to register. */
  datatype TState = TState(cg: Codegen, varLookup: map<NodeId, RegisterId>)

  /** A translated node: the new state and the register holding the node's value. */
  datatype Lowered = Lowered(st: TState, reg: RegisterId)

  /** Translated call arguments, in order. */
  datatype LoweredArgs = LoweredArgs(st: TState, regs: seq<RegisterId>)

  /** The builder is well formed and every variable aliases an existing register. */
  ghost predicate Inv(st: TState) {
    && WellFormed(st.cg)
    && forall k :: k in st.varLookup ==> st.varLookup[k] < |st.cg.registerValues|
  }

  /** Translation only adds: code and registers extend, and no variable is forgotten. */
  ghost predicate Grows(before: TState, after: TState) {
    Extends(before.cg, after.cg) && before.varLookup.Keys <= after.varLookup.Keys
  }

  /** What every successful translation step guarantees. */
  ghost predicate Valid(before: TState, l: Lowered) {
    Inv(l.st) && Grows(before, l.st) && l.reg < |l.st.cg.registerValues|
  }

  /**
   * The branch reserved by an `if` at position `p` has been patched: its true
   * edge is the next instruction; without an else branch its false edge is the
   * end of the code, and with one the false edge is just past a jump to the end.
   */
  ghost predicate PatchedIfBranch(instructions: seq<Instruction>, p: nat, hasElse: bool)
    requires p < |instructions|
  {
    var br := instructions[p];
    && br.BRIF?
    && br.thenBranch == p + 1
    && if hasElse then
         && p + 1 < br.elseBranch <= |instructions|
         && instructions[br.elseBranch - 1] == JMP(|instructions|)
       else
         br.elseBranch == |instructions|
  }

  /**
   * A `while` added to `before` ends with a jump back to its first
   * instruction, and its reserved branch has been patched to enter the body on
   * true and leave the loop on false.
   */
  ghost predicate LoopPatched(before: Codegen, after: Codegen) {
    var top := |before.instructions|;
    var n := |after.instructions|;
    && top + 2 <= n
    && after.instructions[n - 1] == JMP(top)
    && exists p :: top <= p < n - 1 && PatchedLoopBranch(after.instructions, p)
  }

  /**
   * The code of a `while` that starts at `top`: the condition's code `cond`,
   * kept as lowered, then its branch, patched to enter the body just after it
   * on a nonzero `cond.reg` and to leave past the back-jump otherwise, then the
   * body's code as it was lowered, which ends at `body`, and finally a jump
   * back to `top`.
   */
  ghost predicate LoopLaidOut(code: seq<Instruction>, top: nat, cond: Lowered, body: Codegen) {
    var brifAt := |cond.st.cg.instructions|;
    && brifAt < |body.instructions|
    && code == (body.instructions + [JMP(top)])[brifAt := BRIF(cond.reg, brifAt + 1, |body.instructions| + 1)]
    && (forall i :: 0 <= i < brifAt ==> code[i] == cond.st.cg.instructions[i])
  }

  ghost predicate PatchedLoopBranch(instructions: seq<Instruction>, p: nat)
    requires p < |instructions|
  {
    && instructions[p].BRIF?
    && instructions[p].thenBranch == p + 1
    && instructions[p].elseBranch == |instructions|
  }

  /**
   * The code from `from` up to `upTo` moves `source` into `output`: one `MOV`,
   * or nothing at all when the two are the same register, as `mov` elides a
   * self-move.
   */
  ghost predicate MovedInto(instructions: seq<Instruction>, from: nat, upTo: nat, output: RegisterId, source: RegisterId) {
    if source == output then upTo == from
    else upTo == from + 1 && from < |instructions| && instructions[from] == MOV(output, source)
  }

  /**
   * The then arm of an `if` whose branch sits at `brifAt`: the arm's code `t`
   * follows the branch as it was lowered, then comes the move of its value
   * into `output`, then a jump to the end when there is an else branch, while
   * without one the move ends the code.
   */
  /**
   * The code of an `if` after its condition `cond` was lowered: the
   * condition's code is kept, and right after it sits the patched branch,
   * which tests the condition's register.
   */
  ghost predicate IfLaidOut(code: seq<Instruction>, cond: Lowered, hasElse: bool) {
    var brifAt := |cond.st.cg.instructions|;
    && brifAt < |code|
    && (forall i :: 0 <= i < brifAt ==> code[i] == cond.st.cg.instructions[i])
    && PatchedIfBranch(code, brifAt, hasElse)
    && code[brifAt].condition == cond.reg
  }

  lemma IfLayout(cond: Lowered, reserved: Codegen, after: Codegen, hasElse: bool)
    requires Extends(cond.st.cg, reserved) && |cond.st.cg.instructions| < |reserved.instructions|
    requires ExtendsExcept(reserved, after, |cond.st.cg.instructions|)
    requires PatchedIfBranch(after.instructions, |cond.st.cg.instructions|, hasElse)
    requires after.instructions[|cond.st.cg.instructions|].condition == cond.reg
    ensures IfLaidOut(after.instructions, cond, hasElse)
  {
  }

  ghost predicate ThenArmLaidOut(code: seq<Instruction>, brifAt: nat, t: Lowered, output: RegisterId, hasElse: bool) {
    var thenEnd := |t.st.cg.instructions|;
    var moved := if t.reg == output then thenEnd else thenEnd + 1;
    && thenEnd <= |code|
    && (forall i :: brifAt < i < thenEnd ==> code[i] == t.st.cg.instructions[i])
    && MovedInto(code, thenEnd, moved, output, t.reg)
    && (!hasElse ==> moved == |code|)
    && (hasElse ==> moved < |code| && code[moved] == JMP(|code|))
  }

  /** Overwriting one position outside a move, and appending after it, keeps the move. */
  lemma MoveSurvives(code: seq<Instruction>, code': seq<Instruction>, at: nat, from: nat, upTo: nat,
                     output: RegisterId, source: RegisterId)
    requires MovedInto(code, from, upTo, output, source)
    requires (at < from || upTo <= at) && upTo <= |code'| && |code| <= |code'|
    requires forall i :: 0 <= i < |code| && i != at ==> code'[i] == code[i]
    ensures MovedInto(code', from, upTo, output, source)
  {
  }

  /**
   * A branch whose true edge is the next instruction is patched the way an `if`
   * needs it: its false edge is the end of the code, or with an else branch
   * one past the position `mid` of a jump to the end.
   */
  lemma IfBranchShape(code: seq<Instruction>, brifAt: nat, cond: RegisterId, mid: nat, hasElse: bool)
    requires brifAt < mid
    requires !hasElse ==> mid == |code| && code[brifAt] == BRIF(cond, brifAt + 1, |code|)
    requires hasElse ==> mid < |code| && code[mid] == JMP(|code|) && code[brifAt] == BRIF(cond, brifAt + 1, mid + 1)
    ensures PatchedIfBranch(code, brifAt, hasElse)
  {
  }

  lemma LoopShape(before: Codegen, after: Codegen, brifAt: nat, cond: RegisterId)
    requires |before.instructions| <= brifAt && brifAt + 2 <= |after.instructions|
    requires after.instructions[|after.instructions| - 1] == JMP(|before.instructions|)
    requires after.instructions[brifAt] == BRIF(cond, brifAt + 1, |after.instructions|)
    ensures LoopPatched(before, after)
  {
    assert PatchedLoopBranch(after.instructions, brifAt);
  }

  /**
   * How the pieces of an `if` fit together once its arms are lowered: the code
   * before the then-arm is kept, the branch is patched, and the then-arm's move
   * into the output register survives the patch.
   */
  lemma ArmsLayout(before: Codegen, t: Lowered, afterThen: Codegen, after: Codegen,
                   brifAt: nat, cond: RegisterId, output: RegisterId, hasElse: bool)
    requires brifAt + 1 == |before.instructions|
    requires Extends(before, t.st.cg) && Extends(t.st.cg, afterThen)
    requires MovedInto(afterThen.instructions, |t.st.cg.instructions|, |afterThen.instructions|, output, t.reg)
    requires ExtendsExcept(afterThen, after, brifAt)
    requires !hasElse ==>
      && |after.instructions| == |afterThen.instructions|
      && after.instructions[brifAt] == BRIF(cond, brifAt + 1, |afterThen.instructions|)
    requires hasElse ==>
      && |afterThen.instructions| < |after.instructions|
      && after.instructions[|afterThen.instructions|] == JMP(|after.instructions|)
      && after.instructions[brifAt] == BRIF(cond, brifAt + 1, |afterThen.instructions| + 1)
    ensures ExtendsExcept(before, after, brifAt) && ExtendsExcept(t.st.cg, after, brifAt)
    ensures PatchedIfBranch(after.instructions, brifAt, hasElse) && after.instructions[brifAt].condition == cond
    ensures ThenArmLaidOut(after.instructions, brifAt, t, output, hasElse)
  {
    ExtendsThenExcept(before, t.st.cg, afterThen, after, brifAt);
    ExtendsThenExcept(t.st.cg, t.st.cg, afterThen, after, brifAt);
    IfBranchShape(after.instructions, brifAt, cond, |afterThen.instructions|, hasElse);
    MoveSurvives(afterThen.instructions, after.instructions, brifAt, |t.st.cg.instructions|,
                 |afterThen.instructions|, output, t.reg);
  }

  lemma ExtendsThenExcept(a: Codegen, b: Codegen, c: Codegen, d: Codegen, at: nat)
    requires Extends(a, b) && Extends(b, c) && ExtendsExcept(c, d, at)
    ensures ExtendsExcept(a, d, at)
  {
  }

  lemma GrowsTransitive(a: TState, b: TState, c: TState)
    requires Grows(a, b) && Grows(b, c)
    ensures Grows(a, c)
  {
  }

  function Lift(st: TState, e: Emit): Lowered {
    Lowered(st.(cg := e.cg), e.reg)
  }

  predicate IsArithNode(n: AstNode) {
    n.Plus? || n.Minus? || n.Multiply? || n.Divide?
  }

  predicate IsCompareNode(n: AstNode) {
    n.LessThan? || n.LessThanOrEqual? || n.GreaterThan? || n.GreaterThanOrEqual?
  }

  function ArithKindOf(n: AstNode): ArithKind
    requires IsArithNode(n)
  {
    match n
    case Plus => Add
    case Minus => Sub
    case Multiply => Mul
    case Divide => Div
  }

  function CompareKindOf(n: AstNode): CompareKind
    requires IsCompareNode(n)
  {
    match n
    case LessThan => Lt
    case LessThanOrEqual => Lte
    case GreaterThan => Gt
    case GreaterThanOrEqual => Gte
  }

  /**
   * The operator dispatch of `translate_binop`: arithmetic and comparison go to
   * the type-directed builder helpers, assignment to `mov` with the left
   * operand's own register as the target, anything else is refused.
   */
  function EmitOperator(cg: Codegen, opNode: AstNode, op: NodeId, lhs: RegisterId, rhs: RegisterId)
    : (r: Result<Emit, Fault>)
    requires WellFormed(cg) && lhs < |cg.registerValues| && rhs < |cg.registerValues|
    ensures IsArithNode(opNode) ==> r == Arith(cg, ArithKindOf(opNode), lhs, rhs)
    ensures IsCompareNode(opNode) ==> r == Compare(cg, CompareKindOf(opNode), lhs, rhs)
    ensures opNode.Assignment? ==> r.Success? && r.value.reg == lhs && r.value.cg.registerValues == cg.registerValues
    ensures opNode.Assignment? && lhs != rhs ==>
      r.value.cg.instructions == cg.instructions + [MOV(lhs, rhs)]
    ensures opNode.Assignment? && lhs == rhs ==> r.value.cg == cg
    ensures !IsArithNode(opNode) && !IsCompareNode(opNode) && !opNode.Assignment? ==>
      r == Failure(UnsupportedOperator(op))
    ensures r.Success? ==>
      WellFormed(r.value.cg) && Extends(cg, r.value.cg) && r.value.reg < |r.value.cg.registerValues|
  {
    match opNode
    case Plus => Arith(cg, Add, lhs, rhs)
    case Minus => Arith(cg, Sub, lhs, rhs)
    case Multiply => Arith(cg, Mul, lhs, rhs)
    case Divide => Arith(cg, Div, lhs, rhs)
    case LessThan => Compare(cg, Lt, lhs, rhs)
    case LessThanOrEqual => Compare(cg, Lte, lhs, rhs)
    case GreaterThan => Compare(cg, Gt, lhs, rhs)
    case GreaterThanOrEqual => Compare(cg, Gte, lhs, rhs)
    case Assignment =>
      var e := Mov(cg, lhs, rhs);
      assert e.cg.instructions == cg.instructions + [MOV(lhs, rhs)] || e.cg == cg;
      Success(e)
    case _ => Failure(UnsupportedOperator(op))
  }

  /** `translate_node`: dispatch on the node kind. */
  function TranslateNode(ast: seq<AstNode>, tc: TypeChecker, st: TState, node: NodeId, fuel: nat)
    : (r: Result<Lowered, Fault>)
    requires Inv(st)
    decreases fuel, 1, 0
    ensures r.Success? ==> Valid(st, r.value)
    ensures fuel == 0 ==> r == Failure(OutOfFuel)
    ensures 0 < fuel && |ast| <= node ==> r == Failure(NodeOutOfRange(node))
    ensures 0 < fuel && node < |ast| && ast[node].Int? ==>
      (r.Success? <==> IsI64(ast[node].value))
    ensures 0 < fuel && node < |ast| && (ast[node].Other? || IsArithNode(ast[node]) || IsCompareNode(ast[node]) || ast[node].Assignment?) ==>
      r == Failure(UnsupportedNode(node))
  {
    if fuel == 0 then
      Failure(OutOfFuel)
    else if node >= |ast| then
      Failure(NodeOutOfRange(node))
    else
      var f := fuel - 1;
      match ast[node]
      case Int(v) =>
        if IsI64(v) then Success(Lift(st, I64Const(st.cg, v))) else Failure(MalformedLiteral(node))
      case Float(bits) => Success(Lift(st, F64Const(st.cg, bits)))
      case BinaryOp(lhs, op, rhs) => TranslateBinop(ast, tc, st, lhs, op, rhs, f)
      case Block(nodes) => TranslateBlock(ast, tc, st, nodes, f)
      case True => Success(Lift(st, BoolConst(st.cg, true)))
      case False => Success(Lift(st, BoolConst(st.cg, false)))
      case Let(variableName, initializer) => TranslateLet(ast, tc, st, variableName, initializer, f)
      case Variable => TranslateVariable(tc, st, node)
      case Statement(inner) => TranslateNode(ast, tc, st, inner, f)
      case If(condition, thenBlock, elseExpression) =>
        TranslateIf(ast, tc, st, node, condition, thenBlock, elseExpression, f)
      case While(condition, block) => TranslateWhile(ast, tc, st, condition, block, f)
      case Call(head, args) => TranslateCall(ast, tc, st, head, args, f)
      case _ => Failure(UnsupportedNode(node))
  }

  /**
   * `translate_binop`: the left operand is translated first and the right
   * operand from the state it leaves, so the left operand's code is a prefix
   * of the right operand's, which is a prefix of the result.
   */
  function TranslateBinop(ast: seq<AstNode>, tc: TypeChecker, st: TState,
                          lhs: NodeId, op: NodeId, rhs: NodeId, fuel: nat)
    : (r: Result<Lowered, Fault>)
    requires Inv(st)
    decreases fuel, 3, 0
    ensures r.Success? ==> Valid(st, r.value)
    ensures r.Success? ==>
      var l := TranslateNode(ast, tc, st, lhs, fuel);
      && l.Success?
      && Extends(l.value.st.cg, r.value.st.cg)
      && var rr := TranslateNode(ast, tc, l.value.st, rhs, fuel);
      && rr.Success?
      && Extends(rr.value.st.cg, r.value.st.cg)
      && op < |ast|
      && (ast[op].Assignment? ==> r.value.reg == l.value.reg)
      && r.value.st.varLookup == rr.value.st.varLookup
  {
    var l :- TranslateNode(ast, tc, st, lhs, fuel);
    var rr :- TranslateNode(ast, tc, l.st, rhs, fuel);
    if op >= |ast| then
      Failure(NodeOutOfRange(op))
    else
      var out :- EmitBinop(rr, ast[op], op, l.reg);
      GrowsTransitive(st, l.st, rr.st);
      GrowsTransitive(st, rr.st, out.st);
      Success(out)
  }

  /** The operator of `translate_binop`, emitted once both operands are lowered. */
  function EmitBinop(operand: Lowered, opNode: AstNode, op: NodeId, lhs: RegisterId): (r: Result<Lowered, Fault>)
    requires Inv(operand.st) && lhs < |operand.st.cg.registerValues| && operand.reg < |operand.st.cg.registerValues|
    ensures r.Success? ==> Valid(operand.st, r.value) && r.value.st.varLookup == operand.st.varLookup
    ensures r.Success? && opNode.Assignment? ==> r.value.reg == lhs
  {
    var e :- EmitOperator(operand.st.cg, opNode, op, lhs, operand.reg);
    Success(Lowered(operand.st.(cg := e.cg), e.reg))
  }

  /** `translate_let`: the variable becomes an alias of its initializer's register. */
  function TranslateLet(ast: seq<AstNode>, tc: TypeChecker, st: TState,
                        variableName: NodeId, initializer: NodeId, fuel: nat)
    : (r: Result<Lowered, Fault>)
    requires Inv(st)
    decreases fuel, 3, 0
    ensures r.Success? ==> Valid(st, r.value)
    ensures r.Success? <==> TranslateNode(ast, tc, st, initializer, fuel).Success?
    ensures r.Success? ==>
      var init := TranslateNode(ast, tc, st, initializer, fuel).value;
      && r.value.reg == init.reg
      && r.value.st.cg == init.st.cg
      && r.value.st.varLookup == init.st.varLookup[variableName := init.reg]
  {
    var init :- TranslateNode(ast, tc, st, initializer, fuel);
    Success(Lowered(init.st.(varLookup := init.st.varLookup[variableName := init.reg]), init.reg))
  }

  /**
   * `translate_variable`: follow the reference to its definition site, then
   * the definition site to its register. Nothing is emitted.
   */
  function TranslateVariable(tc: TypeChecker, st: TState, node: NodeId): (r: Result<Lowered, Fault>)
    requires Inv(st)
    ensures r.Success? ==> Valid(st, r.value)
    ensures r.Success? <==> node in tc.variableDef && tc.variableDef[node] in st.varLookup
    ensures node !in tc.variableDef ==> r == Failure(UnresolvedVariable(node))
    ensures node in tc.variableDef && tc.variableDef[node] !in st.varLookup ==>
      r == Failure(MissingDefinition(tc.variableDef[node]))
    ensures r.Success? ==> r.value.st == st && r.value.reg == st.varLookup[tc.variableDef[node]]
  {
    if node !in tc.variableDef then
      Failure(UnresolvedVariable(node))
    else
      var defSite := tc.variableDef[node];
      if defSite !in st.varLookup then Failure(MissingDefinition(defSite))
      else Success(Lowered(st, st.varLookup[defSite]))
  }

  /**
   * The state after `new_register(tag)` allocates the result register of an
   * `if`, `while` or call: the register count grows by one and nothing else
   * changes. The new register's index is the old register count.
   */
  function Frame(st: TState, tag: TypeId): (frame: TState)
    requires Inv(st)
    ensures Inv(frame) && Grows(st, frame)
    ensures frame.cg.instructions == st.cg.instructions && frame.varLookup == st.varLookup
    ensures |frame.cg.registerValues| == |st.cg.registerValues| + 1
    ensures frame.cg.registerTypes[|st.cg.registerValues|] == tag
  {
    st.(cg := NewRegister(st.cg, tag).cg)
  }

  /**
   * The state after `brif(output, condition, 0, 0)` reserves the branch of an
   * `if` or `while`: one placeholder `BRIF` on `cond` is appended, to be patched
   * once its targets are known.
   */
  function Reserve(st: TState, output: RegisterId, cond: RegisterId): (after: TState)
    requires Inv(st) && cond < |st.cg.registerValues|
    ensures Inv(after) && Grows(st, after)
    ensures after.varLookup == st.varLookup
    ensures after.cg.registerValues == st.cg.registerValues && after.cg.registerTypes == st.cg.registerTypes
    ensures after.cg.instructions == st.cg.instructions + [BRIF(cond, 0, 0)]
  {
    st.(cg := Brif(st.cg, output, cond, 0, 0).cg)
  }

  /**
   * `translate_if`: allocate the result register with the node's type, lower
   * the condition and reserve a branch; the arms then fill in the rest and
   * patch the branch.
   */
  function TranslateIf(ast: seq<AstNode>, tc: TypeChecker, st: TState, node: NodeId,
                       condition: NodeId, thenBlock: NodeId, elseExpression: Option<NodeId>, fuel: nat)
    : (r: Result<Lowered, Fault>)
    requires Inv(st)
    decreases fuel, 3, 0
    ensures r.Success? ==> Valid(st, r.value)
    ensures node >= |tc.nodeTypes| ==> r == Failure(NodeOutOfRange(node))
    ensures r.Success? ==>
      && r.value.reg == |st.cg.registerValues|
      && r.value.st.cg.registerTypes[r.value.reg] == tc.nodeTypes[node]
    ensures r.Success? ==>
      var code := r.value.st.cg.instructions;
      var c := TranslateNode(ast, tc, Frame(st, tc.nodeTypes[node]), condition, fuel);
      && c.Success?
      && IfLaidOut(code, c.value, elseExpression.Some?)
      && TranslateArms(ast, tc, Reserve(c.value.st, r.value.reg, c.value.reg), r.value.reg, c.value.reg,
                       |c.value.st.cg.instructions|, thenBlock, elseExpression, fuel) == Success(r.value.st)
  {
    if node >= |tc.nodeTypes| then
      Failure(NodeOutOfRange(node))
    else
      var frame := Frame(st, tc.nodeTypes[node]);
      var output := |st.cg.registerValues|;
      var cond :- TranslateNode(ast, tc, frame, condition, fuel);
      var brifAt := NextPosition(cond.st.cg);
      var reserved := Reserve(cond.st, output, cond.reg);
      var arms :- TranslateArms(ast, tc, reserved, output, cond.reg, brifAt, thenBlock, elseExpression, fuel);
      GrowsTransitive(st, frame, cond.st);
      IfLayout(cond, reserved.cg, arms.cg, elseExpression.Some?);
      Success(Lowered(arms, output))
  }

  /**
   * The arms of `translate_if`, after the branch at `brifAt` was reserved:
   * lower the then branch and move its value into `output`, then let
   * `FinishArms` lower the else branch, if any, and patch the reserved branch.
   */
  function TranslateArms(ast: seq<AstNode>, tc: TypeChecker, st: TState, output: RegisterId,
                         cond: RegisterId, brifAt: InstructionId,
                         thenBlock: NodeId, elseExpression: Option<NodeId>, fuel: nat)
    : (r: Result<TState, Fault>)
    requires Inv(st) && output < |st.cg.registerValues| && cond < |st.cg.registerValues|
    requires brifAt + 1 == |st.cg.instructions|
    decreases fuel, 2, 2
    ensures r.Success? ==>
      && Inv(r.value)
      && ExtendsExcept(st.cg, r.value.cg, brifAt)
      && st.varLookup.Keys <= r.value.varLookup.Keys
      && PatchedIfBranch(r.value.cg.instructions, brifAt, elseExpression.Some?)
      && r.value.cg.instructions[brifAt].condition == cond
    ensures r.Success? ==>
      var code := r.value.cg.instructions;
      && TranslateNode(ast, tc, st, thenBlock, fuel).Success?
      && var t := TranslateNode(ast, tc, st, thenBlock, fuel).value;
      && ThenArmLaidOut(code, brifAt, t, output, elseExpression.Some?)
      && FinishArms(ast, tc, MoveInto(t, output), output, cond, brifAt, brifAt + 1, elseExpression, fuel) == Success(r.value)
  {
    var thenBranch := NextPosition(st.cg);
    var thenOut :- TranslateNode(ast, tc, st, thenBlock, fuel);
    var afterThen := MoveInto(thenOut, output);
    var arms :- FinishArms(ast, tc, afterThen, output, cond, brifAt, thenBranch, elseExpression, fuel);
    ArmsLayout(st.cg, thenOut, afterThen.cg, arms.cg, brifAt, cond, output, elseExpression.Some?);
    Success(arms)
  }

  /** `mov(output, value)` at the end of an arm of `translate_if`. */
  function MoveInto(value: Lowered, output: RegisterId): (after: TState)
    requires Inv(value.st) && value.reg < |value.st.cg.registerValues| && output < |value.st.cg.registerValues|
    ensures Inv(after) && Grows(value.st, after) && after.varLookup == value.st.varLookup
    ensures after.cg.registerValues == value.st.cg.registerValues && after.cg.registerTypes == value.st.cg.registerTypes
    ensures MovedInto(after.cg.instructions, |value.st.cg.instructions|, |after.cg.instructions|, output, value.reg)
  {
    value.st.(cg := Mov(value.st.cg, output, value.reg).cg)
  }

  /**
   * The rest of `translate_if` once the then branch is in place: without an
   * else branch, patch the reserved branch to skip to the end; with one, lower
   * it behind a jump and patch the reserved branch to land just past that jump.
   */
  function FinishArms(ast: seq<AstNode>, tc: TypeChecker, st: TState, output: RegisterId,
                      cond: RegisterId, brifAt: InstructionId, thenBranch: InstructionId,
                      elseExpression: Option<NodeId>, fuel: nat)
    : (r: Result<TState, Fault>)
    requires Inv(st) && output < |st.cg.registerValues| && cond < |st.cg.registerValues|
    requires brifAt < |st.cg.instructions| && thenBranch <= |st.cg.instructions|
    decreases fuel, 2, 1
    ensures r.Success? ==>
      && Inv(r.value)
      && ExtendsExcept(st.cg, r.value.cg, brifAt)
      && st.varLookup.Keys <= r.value.varLookup.Keys
    ensures elseExpression.None? ==>
      && r.Success?
      && r.value.varLookup == st.varLookup
      && r.value.cg.registerValues == st.cg.registerValues && r.value.cg.registerTypes == st.cg.registerTypes
      && r.value.cg.instructions == st.cg.instructions[brifAt := BRIF(cond, thenBranch, |st.cg.instructions|)]
    ensures elseExpression.Some? ==>
      var e := TranslateElse(ast, tc, st, output, elseExpression.value, fuel);
      && (e.Failure? ==> r == Failure(e.error))
      && (e.Success? ==>
            && r.Success?
            && r.value.varLookup == e.value.varLookup
            && r.value.cg.registerValues == e.value.cg.registerValues
            && r.value.cg.registerTypes == e.value.cg.registerTypes
            && brifAt < |e.value.cg.instructions|
            && r.value.cg.instructions == e.value.cg.instructions[brifAt := BRIF(cond, thenBranch, |st.cg.instructions| + 1)])
    ensures elseExpression.Some? && r.Success? ==>
      var code := r.value.cg.instructions;
      && |st.cg.instructions| < |code|
      && code[|st.cg.instructions|] == JMP(|code|)
      && code[brifAt] == BRIF(cond, thenBranch, |st.cg.instructions| + 1)
  {
    match elseExpression
    case None =>
      var elseBranch := NextPosition(st.cg);
      Success(PatchBranch(st, st, brifAt, cond, thenBranch, elseBranch))
    case Some(elseNode) =>
      var jmpAt := NextPosition(st.cg);
      var elseOut :- TranslateElse(ast, tc, st, output, elseNode, fuel);
      Success(PatchBranch(st, elseOut, brifAt, cond, thenBranch, jmpAt + 1))
  }

  /**
   * The patch that closes an `if`: the branch reserved at `brifAt` while
   * lowering from `from` is overwritten in `st`, whose code extends `from`'s
   * past whatever was appended since (the then arm, or the else arm and its
   * jump), with its true edge `thenBranch` and its false edge `elseBranch`.
   */
  function PatchBranch(from: TState, st: TState, brifAt: InstructionId, cond: RegisterId,
                       thenBranch: InstructionId, elseBranch: InstructionId): (after: TState)
    requires Inv(st) && ExtendsExcept(from.cg, st.cg, |from.cg.instructions|)
    requires from.varLookup.Keys <= st.varLookup.Keys
    requires brifAt < |from.cg.instructions| && cond < |from.cg.registerValues|
    requires thenBranch <= |from.cg.instructions| && elseBranch <= |st.cg.instructions|
    ensures Inv(after) && ExtendsExcept(from.cg, after.cg, brifAt)
    ensures from.varLookup.Keys <= after.varLookup.Keys
    ensures after.varLookup == st.varLookup
    ensures after.cg.registerValues == st.cg.registerValues && after.cg.registerTypes == st.cg.registerTypes
    ensures after.cg.instructions == st.cg.instructions[brifAt := BRIF(cond, thenBranch, elseBranch)]
  {
    st.(cg := Patch(st.cg, brifAt, BRIF(cond, thenBranch, elseBranch)))
  }

  /**
   * The else arm of `translate_if`: reserve a jump, lower the else branch,
   * move its value into `output`, and patch the jump to land after it all.
   */
  function TranslateElse(ast: seq<AstNode>, tc: TypeChecker, st: TState, output: RegisterId,
                         elseNode: NodeId, fuel: nat)
    : (r: Result<TState, Fault>)
    requires Inv(st) && output < |st.cg.registerValues|
    decreases fuel, 2, 0
    ensures r.Success? ==>
      var jmpAt := |st.cg.instructions|;
      && Inv(r.value)
      && ExtendsExcept(st.cg, r.value.cg, jmpAt)
      && st.varLookup.Keys <= r.value.varLookup.Keys
      && jmpAt < |r.value.cg.instructions|
      && r.value.cg.instructions[jmpAt] == JMP(|r.value.cg.instructions|)
    ensures r.Success? ==>
      && TranslateNode(ast, tc, st.(cg := Jmp(st.cg, 0)), elseNode, fuel).Success?
      && var e := TranslateNode(ast, tc, st.(cg := Jmp(st.cg, 0)), elseNode, fuel).value;
      && |e.st.cg.instructions| <= |r.value.cg.instructions|
      && (forall i :: |st.cg.instructions| < i < |e.st.cg.instructions| ==> r.value.cg.instructions[i] == e.st.cg.instructions[i])
      && MovedInto(r.value.cg.instructions, |e.st.cg.instructions|, |r.value.cg.instructions|, output, e.reg)
      && r.value.varLookup == e.st.varLookup
  {
    var jmpAt := NextPosition(st.cg);
    var jumped := Jmp(st.cg, 0);
    var elseOut :- TranslateNode(ast, tc, st.(cg := jumped), elseNode, fuel);
    var afterElse := Mov(elseOut.st.cg, output, elseOut.reg).cg;
    var afterIf := NextPosition(afterElse);
    Success(elseOut.st.(cg := Patch(afterElse, jmpAt, JMP(afterIf))))
  }

  /**
   * `translate_while`: allocate a VOID result register, remember the loop top,
   * lower the condition, reserve a branch, lower the body, jump back to the
   * top, and patch the branch to enter the body or leave past the jump.
   */
  function TranslateWhile(ast: seq<AstNode>, tc: TypeChecker, st: TState,
                          condition: NodeId, block: NodeId, fuel: nat)
    : (r: Result<Lowered, Fault>)
    requires Inv(st)
    decreases fuel, 3, 0
    ensures r.Success? ==> Valid(st, r.value)
    ensures r.Success? ==>
      && r.value.reg == |st.cg.registerValues|
      && r.value.st.cg.registerTypes[r.value.reg] == VOID_TYPE
      && LoopPatched(st.cg, r.value.st.cg)
    ensures r.Success? ==>
      var code := r.value.st.cg.instructions;
      var c := TranslateNode(ast, tc, Frame(st, VOID_TYPE), condition, fuel);
      && c.Success?
      && var b := TranslateNode(ast, tc, Reserve(c.value.st, r.value.reg, c.value.reg), block, fuel);
      && b.Success?
      && LoopLaidOut(code, |st.cg.instructions|, c.value, b.value.st.cg)
      && r.value.st.varLookup == b.value.st.varLookup
  {
    var frame := Frame(st, VOID_TYPE);
    var output := |st.cg.registerValues|;
    var top := NextPosition(frame.cg);
    var cond :- TranslateNode(ast, tc, frame, condition, fuel);
    var brifAt := NextPosition(cond.st.cg);
    var bodyFrom := Reserve(cond.st, output, cond.reg);
    var blockBegin := NextPosition(bodyFrom.cg);
    var body :- TranslateNode(ast, tc, bodyFrom, block, fuel);
    GrowsTransitive(st, frame, cond.st);
    GrowsTransitive(st, cond.st, bodyFrom);
    GrowsTransitive(st, bodyFrom, body.st);
    GrowsTransitive(cond.st, bodyFrom, body.st);
    Success(Lowered(CloseLoop(st, cond, body.st, top, brifAt, blockBegin), output))
  }

  /**
   * The end of `translate_while`: jump back to the condition, then patch the
   * reserved branch to enter the body on true and leave the loop on false.
   */
  function CloseLoop(start: TState, cond: Lowered, st: TState, top: InstructionId, brifAt: InstructionId,
                     blockBegin: InstructionId): (after: TState)
    requires Inv(st) && Grows(start, st) && Grows(cond.st, st)
    requires top == |start.cg.instructions| <= brifAt == |cond.st.cg.instructions| < |st.cg.instructions|
    requires blockBegin == brifAt + 1 && cond.reg < |st.cg.registerValues|
    ensures Inv(after) && Grows(start, after)
    ensures after.varLookup == st.varLookup
    ensures after.cg.registerValues == st.cg.registerValues && after.cg.registerTypes == st.cg.registerTypes
    ensures LoopPatched(start.cg, after.cg)
    ensures LoopLaidOut(after.cg.instructions, top, cond, st.cg)
  {
    var looped := Jmp(st.cg, top);
    var blockEnd := NextPosition(looped);
    var patched := Patch(looped, brifAt, BRIF(cond.reg, blockBegin, blockEnd));
    LoopShape(start.cg, patched, brifAt, cond.reg);
    st.(cg := patched)
  }

  /**
   * `translate_block`: an empty block is a fresh VOID register; otherwise the
   * statements are lowered in order and the last one's register is the value.
   */
  function TranslateBlock(ast: seq<AstNode>, tc: TypeChecker, st: TState, nodes: seq<NodeId>, fuel: nat)
    : (r: Result<Lowered, Fault>)
    requires Inv(st)
    decreases fuel, 3, 0
    ensures r.Success? ==> Valid(st, r.value)
    ensures |nodes| == 0 ==>
      && r.Success?
      && r.value.reg == |st.cg.registerValues|
      && r.value.st.cg.registerTypes[r.value.reg] == VOID_TYPE
      && r.value.st.cg.instructions == st.cg.instructions
      && r.value.st.varLookup == st.varLookup
    ensures |nodes| == 1 ==> r == TranslateNode(ast, tc, st, nodes[0], fuel)
    ensures r.Success? && 0 < |nodes| ==> TranslateNode(ast, tc, st, nodes[0], fuel).Success?
  {
    if |nodes| == 0 then Success(Lift(st, NewRegister(st.cg, VOID_TYPE)))
    else TranslateSequence(ast, tc, st, nodes, fuel)
  }

  /** The statements of a non-empty block, in order; the value is the last one's. */
  function TranslateSequence(ast: seq<AstNode>, tc: TypeChecker, st: TState, nodes: seq<NodeId>, fuel: nat)
    : (r: Result<Lowered, Fault>)
    requires Inv(st) && |nodes| > 0
    decreases fuel, 2, |nodes|
    ensures r.Success? ==> Valid(st, r.value)
    ensures |nodes| == 1 ==> r == TranslateNode(ast, tc, st, nodes[0], fuel)
    ensures r.Success? ==> TranslateNode(ast, tc, st, nodes[0], fuel).Success?
  {
    var first :- TranslateNode(ast, tc, st, nodes[0], fuel);
    if |nodes| == 1 then Success(first) else TranslateSequence(ast, tc, first.st, nodes[1..], fuel)
  }

  /**
   * `translate_call`: allocate a VOID result register, resolve the callee,
   * lower the arguments in order, emit one call writing the result register.
   */
  function TranslateCall(ast: seq<AstNode>, tc: TypeChecker, st: TState,
                         head: NodeId, args: seq<NodeId>, fuel: nat)
    : (r: Result<Lowered, Fault>)
    requires Inv(st)
    decreases fuel, 3, 0
    ensures r.Success? ==> Valid(st, r.value)
    ensures head !in tc.callResolution ==> r == Failure(UnresolvedCall(head))
    ensures r.Success? ==>
      var code := r.value.st.cg.instructions;
      var lowered := TranslateArgs(ast, tc, Frame(st, VOID_TYPE), args, fuel);
      && r.value.reg == |st.cg.registerValues|
      && r.value.st.cg.registerTypes[r.value.reg] == VOID_TYPE
      && |st.cg.instructions| < |code|
      && lowered.Success? && |lowered.value.regs| == |args|
      && code[|code| - 1] == EXTERNALCALL(tc.callResolution[head], lowered.value.regs, r.value.reg)
      && code[..|code| - 1] == lowered.value.st.cg.instructions
      && r.value.st.varLookup == lowered.value.st.varLookup
  {
    if head !in tc.callResolution then
      Failure(UnresolvedCall(head))
    else
      var callee := tc.callResolution[head];
      var argsFrom := Frame(st, VOID_TYPE);
      var translated :- TranslateArgs(ast, tc, argsFrom, args, fuel);
      var called := EmitCall(translated.st, callee, translated.regs, |st.cg.registerValues|);
      GrowsTransitive(st, argsFrom, translated.st);
      GrowsTransitive(st, translated.st, called.st);
      Success(called)
  }

  /** The final `external_call` of `translate_call`, writing the call's result register. */
  function EmitCall(st: TState, callee: FunctionId, regs: seq<RegisterId>, output: RegisterId): (l: Lowered)
    requires Inv(st) && output < |st.cg.registerValues|
    requires forall a :: a in regs ==> a < |st.cg.registerValues|
    ensures Valid(st, l) && l.reg == output && l.st.varLookup == st.varLookup
    ensures l.st.cg.registerValues == st.cg.registerValues && l.st.cg.registerTypes == st.cg.registerTypes
    ensures |l.st.cg.instructions| == |st.cg.instructions| + 1
    ensures l.st.cg.instructions[|st.cg.instructions|] == EXTERNALCALL(callee, regs, output)
  {
    Lowered(st.(cg := ExternalCall(st.cg, callee, regs, output)), output)
  }

  /** The arguments of a call, lowered left to right. */
  function TranslateArgs(ast: seq<AstNode>, tc: TypeChecker, st: TState, args: seq<NodeId>, fuel: nat)
    : (r: Result<LoweredArgs, Fault>)
    requires Inv(st)
    decreases fuel, 2, |args|
    ensures r.Success? ==>
      && Inv(r.value.st) && Grows(st, r.value.st)
      && |r.value.regs| == |args|
      && forall a :: a in r.value.regs ==> a < |r.value.st.cg.registerValues|
    ensures |args| == 0 ==> r == Success(LoweredArgs(st, []))
    ensures r.Success? && 0 < |args| ==>
      && TranslateNode(ast, tc, st, args[0], fuel).Success?
      && var first := TranslateNode(ast, tc, st, args[0], fuel).value;
      && r.value.regs[0] == first.reg
      && Grows(first.st, r.value.st)
  {
    if |args| == 0 then
      Success(LoweredArgs(st, []))
    else
      var first :- TranslateNode(ast, tc, st, args[0], fuel);
      var rest :- TranslateArgs(ast, tc, first.st, args[1..], fuel);
      var regs := [first.reg] + rest.regs;
      assert regs[1..] == rest.regs;
      Success(LoweredArgs(rest.st, regs))
  }

  /**
   * `translate` on a fresh `Translater`: lower the last node, the root, and
   * move its value into register 0, whichever register that is. An empty
   * tree gives an empty builder.
   */
  function Translate(ast: seq<AstNode>, tc: TypeChecker, fuel: nat): (r: Result<Codegen, Fault>)
    ensures |ast| == 0 ==> r == Success(EmptyCodegen)
    ensures r.Success? ==> WellFormed(r.value)
    ensures r.Success? && 0 < |ast| ==> 0 < |r.value.registerValues|
    ensures r.Success? && 0 < |ast| ==>
      var root := TranslateNode(ast, tc, TState(EmptyCodegen, map[]), |ast| - 1, fuel);
      && root.Success?
      && r.value.registerValues == root.value.st.cg.registerValues
      && r.value.registerTypes == root.value.st.cg.registerTypes
      && (root.value.reg == 0 ==> r.value.instructions == root.value.st.cg.instructions)
      && (root.value.reg != 0 ==> r.value.instructions == root.value.st.cg.instructions + [MOV(0, root.value.reg)])
  {
    if |ast| == 0 then
      Success(EmptyCodegen)
    else
      var root :- TranslateNode(ast, tc, TState(EmptyCodegen, map[]), |ast| - 1, fuel);
      Success(Mov(root.st.cg, 0, root.reg).cg)
  }
}

=== FILE: vm.dfy ===
/**
 * The execution half of `FunctionCodegen` in src/codegen.rs: the
 * fetch/decode/execute loop of `eval` over a program counter, and the call
 * boundary to host functions. Float arithmetic and host callables are opaque
 * to the engine and come in as functions inside `Env`.
 */
module Vm {
  import opened Wrappers
  import opened Faults
  import opened Builder

  /**
   * IEEE arithmetic on payloads that hold an f64's bit pattern. The engine
   * reinterprets the bits, operates and reinterprets back; the model keeps the
   * operations uninterpreted.
   */
  datatype FloatOps = FloatOps(
    add: (int, int) -> int,
    sub: (int, int) -> int,
    mul: (int, int) -> int,
    div: (int, int) -> int,
    lt: (int, int) -> bool,
    lte: (int, int) -> bool,
    gt: (int, int) -> bool,
    gte: (int, int) -> bool)

  /**
   * What a host callable hands back: an error (which the engine unwraps, so it
   * panics), a boxed i64, or a boxed value of any other type, whose downcast to
   * i64 fails.
   */
  datatype HostReturn = HostError | ReturnedI64(value: int) | ReturnedOther

  /** A host callable taking one or two boxed i64 arguments. */
  datatype HostFunction =
    | ExternalFn1(fun1: int -> HostReturn)
    | ExternalFn2(fun2: (int, int) -> HostReturn)

  /** The function table and the float operations the interpreter consults. */
  datatype Env = Env(functions: seq<HostFunction>, floats: FloatOps)

  /** The interpreter's state: the builder's code and register file, and the program counter. */
  datatype Machine = Machine(code: Codegen, pc: nat)

  /** An i64 result, or the overflow panic of debug-build Rust arithmetic. */
  function Checked(v: int): (r: Result<int, Fault>)
    ensures r.Success? <==> IsI64(v)
    ensures r.Success? ==> r.value == v
    ensures r.Failure? ==> r.error == Overflow
  {
    if IsI64(v) then Success(v) else Failure(Overflow)
  }

  function Abs(x: int): nat {
    if x < 0 then -x else x
  }

  /**
   * Rust's `/` on integers: the quotient rounded toward zero (Dafny's own
   * `/` is Euclidean and differs on negative operands). The remainder left
   * over is smaller than the divisor and never has the opposite sign of the
   * dividend.
   */
  function TruncDiv(a: int, b: int): (q: int)
    requires b != 0
    ensures Abs(a - q * b) < Abs(b)
    ensures a - q * b == 0 || (a - q * b < 0 <==> a < 0)
  {
    var q0 := Abs(a) / Abs(b);
    TruncDivCases(a, b, q0, Abs(a) % Abs(b));
    if (a < 0) == (b < 0) then q0 else -q0
  }

  lemma TruncDivCases(a: int, b: int, q0: int, m: int)
    requires b != 0 && q0 == Abs(a) / Abs(b) && m == Abs(a) % Abs(b)
    ensures (a < 0) == (b < 0) ==> a - q0 * b == (if a < 0 then -m else m)
    ensures (a < 0) != (b < 0) ==> a - (-q0) * b == (if a < 0 then -m else m)
    ensures 0 <= m < Abs(b)
  {
    assert Abs(a) == q0 * Abs(b) + m;
    if b < 0 {
      assert q0 * b == -(q0 * Abs(b));
      assert (-q0) * b == q0 * Abs(b);
    } else {
      assert (-q0) * b == -(q0 * Abs(b));
    }
  }

  /** 1 for true and 0 for false: Rust's `bool as i64`. */
  function BoolPayload(b: bool): (v: int)
    ensures v == 0 || v == 1
    ensures v == 1 <==> b
  {
    if b then 1 else 0
  }

  /** The payload an arithmetic or comparison opcode computes from its two operand payloads. */
  function ApplyOpcode(floats: FloatOps, op: Opcode, a: int, b: int): (r: Result<int, Fault>)
    ensures IsComparison(op) ==> r.Success? && (r.value == 0 || r.value == 1)
    ensures op == ILT ==> r.Success? && (r.value == 1 <==> a < b)
    ensures op == ILTE ==> r.Success? && (r.value == 1 <==> a <= b)
    ensures op == IGT ==> r.Success? && (r.value == 1 <==> a > b)
    ensures op == IGTE ==> r.Success? && (r.value == 1 <==> a >= b)
    ensures op == IADD ==> (r.Success? <==> IsI64(a + b)) && (r.Success? ==> r.value == a + b)
    ensures op == ISUB ==> (r.Success? <==> IsI64(a - b)) && (r.Success? ==> r.value == a - b)
    ensures op == IMUL ==> (r.Success? <==> IsI64(a * b)) && (r.Success? ==> r.value == a * b)
    ensures op == IDIV && b == 0 ==> r == Failure(DivisionByZero)
    ensures op == IDIV && b != 0 ==> r == Checked(TruncDiv(a, b))
    ensures IsFloatOpcode(op) ==> r.Success?
    ensures r.Failure? ==> r.error == Overflow || r.error == DivisionByZero
  {
    match op
    case IADD => Checked(a + b)
    case ISUB => Checked(a - b)
    case IMUL => Checked(a * b)
    case IDIV => if b == 0 then Failure(DivisionByZero) else Checked(TruncDiv(a, b))
    case ILT => Success(BoolPayload(a < b))
    case ILTE => Success(BoolPayload(a <= b))
    case IGT => Success(BoolPayload(a > b))
    case IGTE => Success(BoolPayload(a >= b))
    case FADD => Success(floats.add(a, b))
    case FSUB => Success(floats.sub(a, b))
    case FMUL => Success(floats.mul(a, b))
    case FDIV => Success(floats.div(a, b))
    case FLT => Success(BoolPayload(floats.lt(a, b)))
    case FLTE => Success(BoolPayload(floats.lte(a, b)))
    case FGT => Success(BoolPayload(floats.gt(a, b)))
    case FGTE => Success(BoolPayload(floats.gte(a, b)))
  }

  /** Reads a payload; an index past the register file panics. */
  function Read(values: seq<int>, r: RegisterId): (v: Result<int, Fault>)
    ensures v.Success? <==> r < |values|
    ensures v.Success? ==> v.value == values[r]
    ensures v.Failure? ==> v.error == RegisterOutOfRange(r)
  {
    if r < |values| then Success(values[r]) else Failure(RegisterOutOfRange(r))
  }

  /** Overwrites one payload; an index past the register file panics. */
  function Write(values: seq<int>, r: RegisterId, v: int): (w: Result<seq<int>, Fault>)
    ensures w.Success? <==> r < |values|
    ensures w.Success? ==> |w.value| == |values| && w.value[r] == v
    ensures w.Success? ==> forall i :: 0 <= i < |values| && i != r ==> w.value[i] == values[i]
    ensures w.Failure? ==> w.error == RegisterOutOfRange(r)
  {
    if r < |values| then Success(values[r := v]) else Failure(RegisterOutOfRange(r))
  }

  /** The outcome of the host call: Some payload for a boxed i64, None when the downcast fails. */
  function Unwrap(ret: HostReturn): (r: Result<Option<int>, Fault>)
    ensures r.Success? <==> !ret.HostError?
    ensures ret.ReturnedI64? ==> r == Success(Some(ret.value))
    ensures ret.ReturnedOther? ==> r == Success(None)
  {
    match ret
    case HostError => Failure(HostFailed)
    case ReturnedI64(v) => Success(Some(v))
    case ReturnedOther => Success(None)
  }

  /**
   * `eval_external_call`: looks the head up in the function table, boxes the
   * payloads of the first one or two argument registers, and calls the host.
   * Arguments are read in order, so a two-argument host given a single
   * argument still reads that argument's register before missing the second.
   */
  function CallHost(functions: seq<HostFunction>, head: FunctionId, args: seq<RegisterId>, values: seq<int>)
    : (r: Result<Option<int>, Fault>)
    ensures head >= |functions| ==> r == Failure(NoSuchFunction(head))
    ensures head < |functions| && |args| == 0 ==> r == Failure(MissingArgument)
    ensures r.Failure? && r.error.RegisterOutOfRange? ==> r.error.register in args && r.error.register >= |values|
    ensures head < |functions| && functions[head].ExternalFn1? && 1 <= |args| ==>
      if args[0] < |values| then r == Unwrap(functions[head].fun1(values[args[0]]))
      else r == Failure(RegisterOutOfRange(args[0]))
    ensures head < |functions| && functions[head].ExternalFn2? && 1 <= |args| ==>
      if args[0] >= |values| then r == Failure(RegisterOutOfRange(args[0]))
      else if |args| < 2 then r == Failure(MissingArgument)
      else if args[1] >= |values| then r == Failure(RegisterOutOfRange(args[1]))
      else r == Unwrap(functions[head].fun2(values[args[0]], values[args[1]]))
  {
    if head >= |functions| then
      Failure(NoSuchFunction(head))
    else if |args| < 1 then
      Failure(MissingArgument)
    else
      var a0 :- Read(values, args[0]);
      match functions[head]
      case ExternalFn1(f) =>
        Unwrap(f(a0))
      case ExternalFn2(f) =>
        if |args| < 2 then Failure(MissingArgument)
        else
          var a1 :- Read(values, args[1]);
          Unwrap(f(a0, a1))
  }

  /** `unbox_to_register`: writes the target only when the host returned an i64. */
  function Unbox(values: seq<int>, output: Option<int>, target: RegisterId): (w: Result<seq<int>, Fault>)
    ensures output.None? ==> w == Success(values)
    ensures output.Some? ==> w == Write(values, target, output.value)
  {
    match output
    case None => Success(values)
    case Some(v) => Write(values, target, v)
  }

  /** The register an instruction may write, if any. */
  function Writes(ins: Instruction): Option<RegisterId> {
    match ins
    case Binary(_, _, _, target) => Some(target)
    case MOV(target, _) => Some(target)
    case EXTERNALCALL(_, _, target) => Some(target)
    case BRIF(_, _, _) => None
    case JMP(_) => None
  }

  predicate IsBranch(ins: Instruction) {
    ins.BRIF? || ins.JMP?
  }

  /** Replaces the payloads and moves on to the next instruction. */
  function Advance(m: Machine, values: seq<int>): Machine {
    Machine(m.code.(registerValues := values), m.pc + 1)
  }

  /** One iteration of the loop in `eval`: execute the instruction at the program counter. */
  function Step(env: Env, m: Machine): (r: Result<Machine, Fault>)
    requires m.pc < |m.code.instructions|
    ensures r.Success? ==> r.value.code.instructions == m.code.instructions
    ensures r.Success? ==> r.value.code.registerTypes == m.code.registerTypes
    ensures r.Success? ==> |r.value.code.registerValues| == |m.code.registerValues|
    ensures r.Success? ==>
      forall i :: 0 <= i < |m.code.registerValues| && Writes(m.code.instructions[m.pc]) != Some(i) ==>
        r.value.code.registerValues[i] == m.code.registerValues[i]
    ensures r.Success? && !IsBranch(m.code.instructions[m.pc]) ==> r.value.pc == m.pc + 1
    ensures
      var ins := m.code.instructions[m.pc];
      var values := m.code.registerValues;
      ins.BRIF? ==>
        && (r.Success? <==> ins.condition < |values|)
        && (r.Success? ==> r.value.code == m.code)
        && (r.Success? && values[ins.condition] == 0 ==> r.value.pc == ins.elseBranch)
        && (r.Success? && values[ins.condition] != 0 ==> r.value.pc == ins.thenBranch)
    ensures m.code.instructions[m.pc].JMP? ==>
      r == Success(m.(pc := m.code.instructions[m.pc].location))
    ensures
      var ins := m.code.instructions[m.pc];
      var values := m.code.registerValues;
      ins.MOV? ==>
        && (r.Success? <==> ins.source < |values| && ins.target < |values|)
        && (r.Success? ==> r.value.code.registerValues == values[ins.target := values[ins.source]])
    ensures
      var ins := m.code.instructions[m.pc];
      var values := m.code.registerValues;
      ins.Binary? && r.Success? ==>
        && ins.lhs < |values| && ins.rhs < |values| && ins.target < |values|
        && ApplyOpcode(env.floats, ins.op, values[ins.lhs], values[ins.rhs])
           == Success(r.value.code.registerValues[ins.target])
    ensures
      var ins := m.code.instructions[m.pc];
      ins.EXTERNALCALL? && CallHost(env.functions, ins.head, ins.args, m.code.registerValues) == Success(None) ==>
        r == Success(m.(pc := m.pc + 1))
    ensures
      var ins := m.code.instructions[m.pc];
      var values := m.code.registerValues;
      ins.EXTERNALCALL? && CallHost(env.functions, ins.head, ins.args, values).Success?
      && CallHost(env.functions, ins.head, ins.args, values).value.Some? ==>
        var v := CallHost(env.functions, ins.head, ins.args, values).value.value;
        if ins.target < |values| then r == Success(Advance(m, values[ins.target := v]))
        else r == Failure(RegisterOutOfRange(ins.target))
    ensures
      var ins := m.code.instructions[m.pc];
      ins.EXTERNALCALL? && CallHost(env.functions, ins.head, ins.args, m.code.registerValues).Failure? ==>
        r == Failure(CallHost(env.functions, ins.head, ins.args, m.code.registerValues).error)
    ensures WellFormed(m.code) ==> !(r.Failure? && r.error.RegisterOutOfRange?)
  {
    var values := m.code.registerValues;
    match m.code.instructions[m.pc]
    case Binary(op, lhs, rhs, target) =>
      var a :- Read(values, lhs);
      var b :- Read(values, rhs);
      var v :- ApplyOpcode(env.floats, op, a, b);
      var values' :- Write(values, target, v);
      Success(Advance(m, values'))
    case MOV(target, source) =>
      var v :- Read(values, source);
      var values' :- Write(values, target, v);
      Success(Advance(m, values'))
    case BRIF(condition, thenBranch, elseBranch) =>
      var c :- Read(values, condition);
      Success(m.(pc := if c == 0 then elseBranch else thenBranch))
    case JMP(location) =>
      Success(m.(pc := location))
    case EXTERNALCALL(head, args, target) =>
      var output :- CallHost(env.functions, head, args, values);
      var values' :- Unbox(values, output, target);
      Success(Advance(m, values'))
  }

  /**
   * The loop of `eval`: step until the program counter is at or past the end
   * of the instruction sequence. The loop has no bound of its own (a `while`
   * may spin forever), so the model runs at most `fuel` steps.
   */
  function Run(env: Env, m: Machine, fuel: nat): (r: Result<Machine, Fault>)
    decreases fuel
    ensures r.Success? ==> r.value.pc >= |m.code.instructions|
    ensures r.Success? ==> r.value.code.instructions == m.code.instructions
    ensures r.Success? ==> r.value.code.registerTypes == m.code.registerTypes
    ensures r.Success? ==> |r.value.code.registerValues| == |m.code.registerValues|
    ensures r.Success? && WellFormed(m.code) && m.pc <= |m.code.instructions| ==>
      r.value.pc == |m.code.instructions|
    ensures WellFormed(m.code) ==> !(r.Failure? && r.error.RegisterOutOfRange?)
  {
    if m.pc >= |m.code.instructions| then
      Success(m)
    else if fuel == 0 then
      Failure(OutOfFuel)
    else
      var m' :- Step(env, m);
      assert WellFormed(m.code) ==> WellFormed(m'.code) && m'.pc <= |m.code.instructions| by {
        if WellFormed(m.code) {
          assert m'.code.instructions == m.code.instructions;
          assert InstructionInRange(m.code.instructions[m.pc], |m.code.registerValues|, |m.code.instructions|);
        }
      }
      Run(env, m', fuel - 1)
  }

  /**
   * `eval`: run from program counter 0, then read the payload and the type
   * tag of register 0.
   */
  function Eval(env: Env, cg: Codegen, fuel: nat): (r: Result<(int, TypeId), Fault>)
    ensures r.Success? ==> 0 < |cg.registerTypes| && r.value.1 == cg.registerTypes[0]
    ensures r.Success? ==>
      && Run(env, Machine(cg, 0), fuel).Success?
      && 0 < |Run(env, Machine(cg, 0), fuel).value.code.registerValues|
      && r.value.0 == Run(env, Machine(cg, 0), fuel).value.code.registerValues[0]
    ensures Run(env, Machine(cg, 0), fuel).Failure? ==> r == Failure(Run(env, Machine(cg, 0), fuel).error)
    ensures Run(env, Machine(cg, 0), fuel).Success? && Lockstep(cg) && 0 < |cg.registerValues| ==> r.Success?
    ensures |cg.registerValues| == 0 ==> r.Failure?
    ensures Run(env, Machine(cg, 0), fuel).Success? && |cg.registerValues| == 0 ==>
      r == Failure(RegisterOutOfRange(0))
    ensures WellFormed(cg) && 0 < |cg.registerValues| ==> !(r.Failure? && r.error.RegisterOutOfRange?)
  {
    var m :- Run(env, Machine(cg, 0), fuel);
    var value :- Read(m.code.registerValues, 0);
    if 0 < |m.code.registerTypes| then Success((value, m.code.registerTypes[0]))
    else Failure(RegisterOutOfRange(0))
  }

  /** More fuel never changes the outcome of a run that already finished. */
  lemma {:induction false} RunMoreFuel(env: Env, m: Machine, fuel: nat, more: nat)
    requires Run(env, m, fuel).Success?
    requires fuel <= more
    ensures Run(env, m, more) == Run(env, m, fuel)
    decreases fuel
  {
    if m.pc < |m.code.instructions| {
      var m' := Step(env, m).value;
      RunMoreFuel(env, m', fuel - 1, more - 1);
    }
  }
}

=== FILE: wrappers.dfy ===
/** Failure-compatible Option and Result types used across the model. */
module Wrappers {

  datatype Option<+T> = None | Some(value: T)

  /** The outcome of a step that may hit one of the engine's internal panics. */
  datatype Result<+T, +E> = Success(value: T) | Failure(error: E) {

    predicate IsFailure() {
      Failure?
    }

    function PropagateFailure<U>(): Result<U, E>
      requires Failure?
    {
      Failure(error)
    }

    function Extract(): T
      requires Success?
    {
      value
    }
  }
}
